=== FILE: README.md ===
# Advanced Search: the in-page highlight engine, in Dafny

This project models the content script of the Advanced Search browser
extension (`js/content.js`). The script finds the user's search text in the
page and wraps each hit in a `<mark>`. It steps through the hits with
next and previous, and on request it removes every mark again.

The project is organised as follows.

- `Wrappers` holds `Option`.
- `Seqs` holds generic sequence identities the proofs share.
- `Strings` holds the JavaScript string operations the engine relies on:
  `indexOf`, `substring` with its clamping, `includes`, and the comma join
  that turns an array into a string.
- `Matcher` holds `getRegex` and what each of its four patterns matches:
  - the search text is taken literally;
  - `\b` looks at the ASCII word characters `[A-Za-z0-9_]`;
  - the `i` flag compares characters by ASCII case folding;
  - `String.prototype.match` returns every match with the `g` flag and only
    the first without it.
- `Dom` holds the page as an immutable tree and the DOM operations the
  engine uses:
  - a `<mark>` holds one text node and knows whether it is the current match;
  - reading the marks in document order, and `textContent`;
  - un-wrapping marks, `Node.normalize()`, and setting a mark's class.
- `Highlight` holds:
  - the node iterator's candidates;
  - `shouldNotHighlight` and `anyParent`;
  - the split of a text node into before, mark and after, together with
    `highlightMatches`;
  - the highlight-then-clear round trip.
- `Navigation` holds `getNextMatch` and `getPreviousMatch`.
- `SearchSession` holds the script's state (`markedStrings` and
  `currentMatch`) together with:
  - `clearOldMatches`, `setCurrentMatch` and `moveHighlightedMatch`;
  - the `search` / `move` / `clear` message dispatch;
  - the clear that runs when the popup's port disconnects.

Some modelling choices:

- **Marks are named by position.** A mark in the registry is identified by
  its position among the page's marks in document order, and the registry
  records each mark's text.
- **The registry is kept consistent.** `SearchSession.Consistent` says that
  the registry and the page agree, and every handler keeps it.
- **Where the split happens is a parameter.** `Highlight.OffsetRule` picks
  it:
  - `IndexOfJoined` is what the script does: it calls
    `textContent.indexOf(match)` on the match array.
  - `MatchPosition` is the corrected rule, which splits where the pattern
    matched.

  Every operation takes the rule, so both behaviours are stated side by
  side (see "## Findings").

## Model

| member | source | states |
|---|---|---|
| `Matcher.GetRegex` | js/content.js:169-182 | The pattern keeps the text verbatim. It is whole-word and global exactly when "whole words" is set, and ignores case exactly when "match case" is not set. |
| `Matcher.Match` | js/content.js:128 | `match` gives null exactly when the scan finds no match. Otherwise element 0 is the text at the leftmost match. A non-global pattern gives exactly one element. |
| `Matcher.AllMatchesFrom` | js/content.js:128 | The `g`-flag list from an offset is empty exactly when the scan finds no match from there. Its first entry is the text of the leftmost match, and every entry is the search text, up to case under `i`. |
| `Matcher.NthMatch` | js/content.js:128 | Each successive match of a `g`-flag scan is a match of the pattern, at or after the offset the scan started from. |
| `Matcher.AllMatchesAreSuccessive` | js/content.js:128 | Entry k of the `g`-flag list is the text of the k-th successive match, and the scan finds no match after the last entry. |
| `Matcher.MatchListsSuccessiveMatches` | js/content.js:128 | With the `g` flag, `match` lists the text of every successive match from the start of the text, in order, and nothing else. |
| `Matcher.SeveralMatchesIff` | js/content.js:128 | With the `g` flag, `match` has two or more entries exactly when the scan finds another match after the end of the first. |
| `Matcher.ScanIsLeftmost` | js/content.js:128 | The scan from an offset returns the leftmost match at or after it. When it finds nothing, the pattern matches at no offset from there on. |
| `Matcher.MatchNullIffNoMatch` | js/content.js:56 | `match` gives null exactly when the pattern matches at no offset of the text. |
| `Matcher.IgnoreCaseBlindToCase` | js/content.js:174-180 | Under the `i` flag, case never decides a match, word boundaries included. A string and its case-folded copy match at exactly the same offsets. |
| `Matcher.MatchCaseNarrows` | js/content.js:170-180 | Every case-sensitive match is also a case-insensitive match at the same offset. |
| `Matcher.WholeWordsNarrows` | js/content.js:170-180 | Every whole-word match is also a substring match at the same offset. |
| `Highlight.SubstringPatternIsOccurrence` | js/content.js:176-181 | Without "whole words" the pattern matches exactly where the search text occurs: as written under "match case", and in the ASCII case-folded copies of both strings otherwise. |
| `Matcher.WholeWordExample` | js/content.js:171 | In "scat cat", whole-word "cat" matches only the word at offset 5, not the letters inside "scat". |
| `Matcher.MatchCaseExample` | js/content.js:170-171 | With "match case", whole-word "Cat" in "cat Cat" matches "Cat" alone. |
| `Matcher.IgnoreCaseExample` | js/content.js:173-174 | Without "match case", whole-word "Cat" in "cat Cat" matches both words, each as written in the text. |
| `Strings.IndexOf` | js/content.js:129 | `indexOf` returns -1 or an offset where the needle occurs. |
| `Strings.IndexOfIsFirst` | js/content.js:129 | `indexOf` returns -1 exactly when the needle occurs nowhere. Otherwise no earlier offset holds the needle. |
| `Strings.Substring` | js/content.js:133 | `substring` clamps its bounds into the string and swaps them when the end comes first. In range it gives the slice, and an end past the string reads to its end. Two bounds at or below zero give "". |
| `Strings.JoinComma` | js/content.js:129 | `String(match)` of a one-element array is that element. With two or more elements, a comma follows the first. |
| `Dom.Unwrap` | js/content.js:91-93 | Replacing every mark by its text node keeps the number of nodes, leaves no mark and keeps `textContent`. |
| `Dom.UnwrapKeepsShape` | js/content.js:91-93 | Un-wrapping works node by node. A mark becomes the text node of its text, and a text node stays. An element keeps its tag and visibility, and its children are un-wrapped in turn. |
| `Dom.Normalize` | js/content.js:103 | `normalize()` leaves no adjacent or empty text nodes. It keeps the marks and `textContent`. |
| `Dom.NormalizeSplitsAtNonText` | js/content.js:103 | A mark or an element splits `normalize()` in two. The text before it merges on its own, and the node stays in place; an element gets its own children normalized. The rest is normalized separately. |
| `Dom.NormalizeAllText` | js/content.js:103 | A run of text nodes alone becomes one text node holding all their text, or nothing when that text is empty. |
| `Dom.NormalizeIdempotent` | js/content.js:103 | Normalizing a normalized page changes nothing. |
| `Dom.NormalizeExample` | js/content.js:97-102 | The text nodes "The ", "dev" and "eloper" become one text node, "The developer". |
| `Dom.SetMarkFlag` | js/content.js:84 | Setting the class of the k-th mark changes only that mark's flag. The marks keep their order and text. With every mark's flag reset, the page is the same before and after. |
| `Dom.SetMarkFlagKeepsTexts` | js/content.js:186 | Changing a mark's class keeps the text of every mark. |
| `Dom.FlagsAndMarksDetermineForest` | js/content.js:84 | Two pages that are equal once every mark's flag is reset, and whose marks agree flag for flag, are the same page. |
| `Highlight.Candidates` | js/content.js:52-58 | The iterator yields only text nodes the pattern matches, each with a parent. |
| `Highlight.CandidatesIffMatchingText` | js/content.js:52-58 | The iterator yields something exactly when some text node of the tree, at any depth and outside the marks, matches. |
| `Highlight.MatchingTextIsTextWalk` | js/content.js:52-58 | A matching text node outside the marks is a node the `SHOW_TEXT` walk visits. On a page without marks, some node of that walk matches exactly when some text node outside the marks does. |
| `Highlight.Registry` | js/content.js:120-140 | The loop pushes at most one mark per candidate. |
| `Highlight.RegistryMatchesText` | js/content.js:128-140 | Every registered string is the search text, up to case under `i`. |
| `Highlight.RegistryEmptyIffAllSkipped` | js/content.js:120-140 | The registry is empty exactly when every candidate is skipped. |
| `Highlight.RegistryConcat` | js/content.js:120-140 | The registry of two runs of candidates is the first run's registry followed by the second's. |
| `Highlight.AnyParentExtend` | js/content.js:158-166 | The chain of nodes up from a node satisfies the predicate when some node on it does. Adding one element to the chain adds exactly that element's test, and the empty chain satisfies nothing. |
| `Highlight.HiddenAncestorSkips` | js/content.js:149-155 | Text anywhere below an element that is not displayed is skipped, however deep it sits. |
| `Highlight.VisibleTextHighlighted` | js/content.js:151-155 | Text whose parent is not a script, and whose ancestors are all displayed, is not skipped. |
| `Highlight.SplitOffsetMeaning` | js/content.js:129 | The script's split offset is the first occurrence of the comma-joined match list, or -1 when the text does not hold it. The corrected offset is the leftmost match of the pattern. |
| `Highlight.OffsetFoundIsOccurrence` | js/content.js:129-130 | A non-negative split offset, under either rule, is an occurrence of `match[0]`. |
| `Highlight.Split` | js/content.js:128-144 | A text node becomes text, a mark holding `match[0]` that is not current, and text. When `indexOf` found its argument, the three pieces spell the original text and the mark starts at that offset. |
| `Highlight.HighlightMatches` | js/content.js:110-147 | Without candidates it returns false and changes neither page nor registry. Otherwise it returns true and extends the registry by at most one entry per candidate, each holding the search text. |
| `Highlight.FoundIffSomeTextMatches` | js/content.js:116-118 | `highlightMatches` returns true exactly when some text node under `<body>`, outside the marks, matches. Each such node is one the `SHOW_TEXT` walk visits. On a page without marks, which is what search hands the pass, it returns true exactly when some text node of that walk matches. |
| `Highlight.PassMarksFollowCandidates` | js/content.js:120-145 | On a page without marks, the marks after the pass are exactly one non-current mark per candidate that is not skipped, in candidate order. |
| `Highlight.HighlightKeepsText` | js/content.js:120-145 | When every split lands on its match, the pass keeps the page's `textContent`. |
| `Highlight.HighlightMatchesConsistent` | js/content.js:110-147 | After the pass on a cleared page, the k-th mark in document order holds the k-th registry text, and no mark is current. |
| `Highlight.HiddenSubtreeUntouched` | js/content.js:151-166 | Under an element with `display: none`, the pass changes nothing and registers nothing. |
| `Highlight.ScriptTextUntouched` | js/content.js:151-154 | The text children of an element whose name contains "SCRIPT" (a script element holds text alone) are neither split nor registered. |
| `Highlight.SkippedTextUntouched` | js/content.js:120-125 | A run of text nodes whose parent `shouldNotHighlight` rejects is neither split nor registered. |
| `Highlight.SkippedTextNodeUntouched` | js/content.js:120-125 | Any one text node whose parent `shouldNotHighlight` rejects is neither split nor registered, whatever its siblings are. |
| `Highlight.NoCandidatesUntouched` | js/content.js:116-118 | With no candidates, the pass returns the page unchanged. |
| `Highlight.HighlightThenClear` | js/content.js:128-144 | If every split lands on an occurrence of its match, un-wrapping and normalizing after the pass gives what un-wrapping and normalizing before it gives. |
| `Highlight.HighlightMatchesThenClear` | js/content.js:90-147 | The same round trip, stated for `<body>`. |
| `Highlight.SubstringOffsetIsMatchPosition` | js/content.js:129 | Without "whole words", `indexOf` finds exactly the offset where the pattern matched. |
| `Highlight.FirstOccurrenceIsMatch` | js/content.js:129 | Without word boundaries, the first occurrence of the leftmost match's characters is that match. |
| `Highlight.SubstringOffsetsFound` | js/content.js:129 | Without "whole words", every split the script makes lands on its match. |
| `Highlight.SingleMatchOffsetFound` | js/content.js:129 | With a single whole-word match, `indexOf` finds the matched text at or before the match. |
| `Highlight.LostOffsetGrowsText` | js/content.js:129-143 | When `indexOf` returns -1 and the search text is not empty, the text before the mark is empty. The text after it starts one character short of the match's length, so the pieces are one character longer than the node. |
| `Highlight.LostOffsetCorruptsText` | js/content.js:129-143 | When `indexOf` returns -1, the text after highlight and clear is `match[0]` followed by the text from one character short of its length. |
| `Highlight.SeveralMatchesLoseOffset` | js/content.js:129 | Two or more matches in a text without a comma join to a string the text does not contain, so `indexOf` returns -1. |
| `Highlight.SeveralMatchesCorruptText` | js/content.js:128-143 | Whenever a comma-free text node holds two or more matches, highlight then clear gives it back one character longer. |
| `Highlight.RepeatedWholeWordMatches` | js/content.js:171 | Whole-word "cat" with case matches "cat cat" twice. |
| `Highlight.RepeatedWholeWordLosesOffset` | js/content.js:128-129 | For "cat cat", `match` gives ["cat", "cat"] and the split offset is -1. |
| `Highlight.RepeatedWholeWordSplit` | js/content.js:128-144 | "cat cat" is split into "", a mark "cat", and "t cat". |
| `Highlight.UnwrapSplit` | js/content.js:91-93 | Un-wrapping the three nodes of a split leaves three text nodes with the same texts. |
| `Highlight.NormalizeThreeTexts` | js/content.js:103 | Normalizing three text nodes that are not all empty leaves one text node holding their texts joined. |
| `Highlight.EmbeddedWordMisplacesMark` | js/content.js:128-129 | For "scat cat", the match is at 5 but the split is at 1, where the pattern does not match. |
| `Highlight.CorrectedSplitIsMatch` | js/content.js:128-144 | Splitting at the match position spells the original text, puts the mark on a match of the pattern, and gives the mark the matched text. |
| `Highlight.MatchPositionOffsetsFound` | js/content.js:129 | Under the corrected rule, every split lands on its match. |
| `Highlight.HighlightThenClearCorrected` | js/content.js:90-147 | Under the corrected rule, highlight then clear is always a round trip. |
| `Navigation.GetNextMatch` | js/content.js:192-195 | The next index is one more than the current one, wrapping to 0 after the last, and stays in range. |
| `Navigation.GetPreviousMatch` | js/content.js:198-201 | The previous index is one less than the current one, wrapping from 0 to the last, and stays in range. |
| `Navigation.NextPreviousInverse` | js/content.js:192-201 | Next then previous, and previous then next, return to the starting index. |
| `Navigation.StepsNextIsAddition` | js/content.js:192-195 | k steps forward land on the index plus k, modulo the count. |
| `Navigation.StepsPreviousIsSubtraction` | js/content.js:198-201 | k steps back land on the index minus k, modulo the count. |
| `Navigation.FullCycle` | js/content.js:192-201 | As many steps as there are matches, in either direction, come back to the start. |
| `SearchSession.ClearOldMatches` | js/content.js:90-104 | Clearing leaves no mark, an empty registry, index 0 and normalized text, and it keeps `textContent`. The page becomes the normalized un-wrapped page, as `Dom.UnwrapKeepsShape`, `Dom.NormalizeSplitsAtNonText` and `Dom.NormalizeAllText` describe. |
| `SearchSession.ClearIdempotent` | js/content.js:90-104 | Clearing twice is the same as clearing once. |
| `SearchSession.SetCurrentMatch` | js/content.js:81-87 | With an empty registry nothing changes. Otherwise only the mark at the current index gains the class, and the registry still names the marks. With every mark's flag reset, the page is unchanged. |
| `SearchSession.Step` | js/content.js:187 | "next" moves the index one forward and any other command one back, modulo the registry's size. |
| `SearchSession.MoveHighlightedMatch` | js/content.js:185-189 | The index moves as `Step` says. The registry is unchanged and still names the page's marks. With every mark's flag reset, the page is unchanged. |
| `SearchSession.MoveKeepsValid` | js/content.js:185-189 | After a move, exactly the mark at the new index carries the class. |
| `SearchSession.NextThenPrevious` | js/content.js:185-201 | Moving forward then back returns exactly the state it started from: the page, the registry and the index. |
| `SearchSession.SearchPage` | js/content.js:40-66 | A search answers with the registry's size and index 0. The registry is the texts of the candidates in the cleared page that are not skipped. Exactly the first mark is current. |
| `SearchSession.NoMatchResponse` | js/content.js:60-65 | When no text matches, a search answers 0 matches at index 0 and leaves the cleared page. |
| `SearchSession.SearchThenClear` | js/content.js:40-104 | If every split lands on its match, searching then clearing gives the same page as clearing alone. |
| `SearchSession.SubstringSearchThenClear` | js/content.js:40-104 | Without "whole words", the script's own split makes search then clear a round trip. |
| `SearchSession.CorrectedSearchThenClear` | js/content.js:40-104 | With the corrected split, search then clear is always a round trip. |
| `SearchSession.HandleMessage` | js/content.js:38-76 | The dispatch keeps the state valid. A search runs `SearchPage`: the registry is the texts of the cleared page's candidates that are not skipped, the index is 0, and the answer gives the registry's size and index 0. On a non-empty registry, a move steps the index as `Step` says, keeps the registry, changes no more than mark flags, and answers with the new index. On an empty registry a move changes nothing and sends no answer. A clear gives the cleared state without an answer. Other messages change nothing. |
| `SearchSession.HandleEvent` | js/content.js:29-76 | A message is handled as `HandleMessage` says. When the "disconnect-sender" port closes, the state becomes the cleared state, with no answer. Other ports change nothing. |
| `SearchSession.Run` | js/content.js:29-76 | Any sequence of messages and disconnects, starting from a consistent state, keeps the state consistent. |

## Left out

- Scrolling to the current match (`scrollToCurrentMatch`, `documentOffsetTop`) changes no state the model tracks, so it is left out.
- `window.getComputedStyle(...).display === 'none'` becomes a `hidden` flag on each element and on `<body>`. Elements above `<body>` (`<html>`) are not modelled.
- The extension messaging API (`chrome.runtime`, ports, `sendResponse`) becomes the `Event`, `Message` and `Response` datatypes.
- The search text goes into `new RegExp` unescaped, so regular-expression metacharacters in it change the pattern. The model takes the text literally.
- Case folding under the `i` flag is ASCII only. Non-ASCII letters compare as themselves.
- A `char` here is a Unicode scalar value. JavaScript's `length`, `indexOf` and `substring` count UTF-16 code units. The two agree on text in the Basic Multilingual Plane. Outside it they differ, and in the lost-offset path that changes where the text is cut. Take whole-word "😀a" in "x😀a x😀a", which matches twice. The script cuts the text after the mark at code unit 2, inside the surrogate pair. The model cuts it at character 1. Where "## Findings" says "one character", the source means one UTF-16 code unit.
- The globals `matchCase` and `wholeWords` are stored by the `search` handler but never read again, so the model does not keep them.
- `js/search.js`, the popup side, is not part of this model.
- Behaviours kept as the code has them:
  - `clearOldMatches` throws on a registered mark that is no longer in the page, rather than tolerating it. `Consistent` is therefore a precondition, which every handler keeps.
  - `move` on an empty registry throws before answering, so `HandleMessage` changes nothing and sends no answer.
  - The word boundary is `(?:^|\b)` and `(?=\b|$)`, not "the neighbouring character is not a word character".
  - The "SCRIPT" test looks only at the direct parent's name.
- `SearchSession.MoveHighlightedMatch` requires a non-empty registry, because the source throws on an empty one. The throwing path is stated in `SearchSession.HandleMessage`.
- `SearchSession.ClearOldMatches` requires `Consistent`, because un-wrapping a registered mark that has left the page throws in the source.
- `Highlight.HighlightMatches` treats an engine mark as a leaf: its text is neither a candidate nor split. The `SHOW_TEXT` walk would visit that text, and splitting it would nest marks, which the `Node` datatype cannot hold. The pass only runs on the page `clearOldMatches` has just cleared (`SearchSession.ClearOldMatches` ensures `Idle`), so it never meets a mark.
- `Highlight.FoundIffSomeTextMatches` states the return value in terms of text outside the marks. It agrees with the whole `SHOW_TEXT` walk only on a page without marks, for the reason given on the line above.
- `Highlight.HighlightThenClear` and `SearchSession.SearchThenClear` require `OffsetsFound`, because the round trip does not hold without it (see "## Findings").

## Findings

| source | as written | input that shows it | evidently intended | confidence | as-written member | corrected member |
|---|---|---|---|---|---|---|
| js/content.js:129 | `textContent.indexOf(match)` converts the match array to its comma-joined string. In a text without commas, with two or more whole-word matches, that string is not in the text, so `start` is -1. The node then becomes "", a mark, and the text from one character short of the match's length. Clearing leaves the text one character longer (one UTF-16 code unit in the source). | "cat cat", whole words with case: the page text becomes "catt cat" after highlight and clear | split at the offset where the pattern matched, so the page text is restored | not executed | `Highlight.SeveralMatchesCorruptText` | `Highlight.HighlightThenClearCorrected` |
| js/content.js:129 | `indexOf(match)`, which for the single match is `match[0]`, finds the first occurrence of the letters, which can be inside a longer word that the whole-word pattern rejected. | "scat cat", whole words with case: the pattern matches at 5, but the mark is put at 1, inside "scat" | mark the word the pattern matched | not executed | `Highlight.EmbeddedWordMisplacesMark` | `Highlight.CorrectedSplitIsMatch` |

=== FILE: dom.dfy ===
/**
 * The page as an immutable tree.
 *
 * `Text` is a text node, `Elem` an element with its `nodeName` and whether
 * its computed `display` is `none`, and `Mark` one of the engine's own
 * `<mark>` wrappers together with the single text node inside it and
 * whether it carries the `current_match` class. The page's `<body>` is a
 * `Document`. Functions here are the DOM operations the engine uses:
 * reading marks and `textContent`, un-wrapping marks, and `normalize()`.
 */
module Dom {
  import opened Seqs

  datatype Node =
    | Text(value: string)
    | Elem(name: string, hidden: bool, kids: seq<Node>)
    | Mark(current: bool, text: string)

  /** The `<body>` element: whether it is hidden, and its children. */
  datatype Document = Document(hidden: bool, kids: seq<Node>)

  /** The marks of a forest, in document (pre-)order. */
  function Marks(ns: seq<Node>): (r: seq<Node>)
    decreases ns
    ensures forall i :: 0 <= i < |r| ==> r[i].Mark?
  {
    if ns == [] then [] else NodeMarks(ns[0]) + Marks(ns[1..])
  }

  /** The marks of one node and its descendants, in document order. */
  function NodeMarks(n: Node): (r: seq<Node>)
    decreases n
    ensures forall i :: 0 <= i < |r| ==> r[i].Mark?
  {
    match n
    case Text(_) => []
    case Elem(_, _, kids) => Marks(kids)
    case Mark(_, _) => [n]
  }

  /** The text of every mark of a forest, in document order. */
  function MarkTexts(ns: seq<Node>): (r: seq<string>)
    ensures |r| == |Marks(ns)|
    ensures forall i :: 0 <= i < |r| ==> r[i] == Marks(ns)[i].text
  {
    var ms := Marks(ns);
    seq(|ms|, i requires 0 <= i < |ms| => ms[i].text)
  }

  /** `textContent`: every character of the forest's text in document order, marked or not. */
  function TextContent(ns: seq<Node>): string
    decreases ns
  {
    if ns == [] then [] else NodeTextContent(ns[0]) + TextContent(ns[1..])
  }

  function NodeTextContent(n: Node): string
    decreases n
  {
    match n
    case Text(v) => v
    case Elem(_, _, kids) => TextContent(kids)
    case Mark(_, t) => t
  }

  lemma {:induction false} MarksConcat(a: seq<Node>, b: seq<Node>)
    ensures Marks(a + b) == Marks(a) + Marks(b)
    decreases a
  {
    if a == [] {
      assert a + b == b;
    } else {
      assert (a + b)[0] == a[0];
      assert (a + b)[1..] == a[1..] + b;
      MarksConcat(a[1..], b);
    }
  }

  /** The marks of a one-node forest are the marks of that node. */
  lemma {:induction false} MarksSingleton(n: Node)
    ensures Marks([n]) == NodeMarks(n)
  {
    assert [n][1..] == [];
  }

  lemma {:induction false} TextContentConcat(a: seq<Node>, b: seq<Node>)
    ensures TextContent(a + b) == TextContent(a) + TextContent(b)
    decreases a
  {
    if a == [] {
      assert a + b == b;
    } else {
      assert (a + b)[0] == a[0];
      assert (a + b)[1..] == a[1..] + b;
      TextContentConcat(a[1..], b);
    }
  }

  /**
   * Clear's un-wrapping, applied to every mark: each mark is replaced by
   * its own text node (`mark.parentNode.replaceChild(mark.firstChild, mark)`).
   */
  function Unwrap(ns: seq<Node>): (r: seq<Node>)
    decreases ns
    ensures |r| == |ns|
    ensures Marks(r) == []
    ensures TextContent(r) == TextContent(ns)
  {
    if ns == [] then [] else [UnwrapNode(ns[0])] + Unwrap(ns[1..])
  }

  function UnwrapNode(n: Node): (r: Node)
    decreases n
    ensures NodeMarks(r) == []
    ensures NodeTextContent(r) == NodeTextContent(n)
  {
    match n
    case Text(_) => n
    case Elem(name, hidden, kids) => Elem(name, hidden, Unwrap(kids))
    case Mark(_, t) => Text(t)
  }

  lemma {:induction false} UnwrapSingleton(n: Node)
    ensures Unwrap([n]) == [UnwrapNode(n)]
  {
    assert [n][1..] == [];
  }

  /**
   * Un-wrapping works node by node and keeps the shape of the forest: a
   * mark becomes the text node of its text, a text node stays, and an
   * element keeps its tag and visibility while its own children are
   * un-wrapped.
   */
  lemma {:induction false} UnwrapKeepsShape(ns: seq<Node>)
    decreases ns
    ensures |Unwrap(ns)| == |ns|
    ensures forall i :: 0 <= i < |ns| ==>
              && (ns[i].Text? ==> Unwrap(ns)[i] == ns[i])
              && (ns[i].Mark? ==> Unwrap(ns)[i] == Text(ns[i].text))
              && (ns[i].Elem? ==> Unwrap(ns)[i] == Elem(ns[i].name, ns[i].hidden, Unwrap(ns[i].kids)))
  {
    if ns != [] {
      var r := Unwrap(ns);
      UnwrapKeepsShape(ns[1..]);
      forall i | 0 <= i < |ns|
        ensures (ns[i].Text? ==> r[i] == ns[i])
             && (ns[i].Mark? ==> r[i] == Text(ns[i].text))
             && (ns[i].Elem? ==> r[i] == Elem(ns[i].name, ns[i].hidden, Unwrap(ns[i].kids)))
      {
        if i == 0 {
          assert r[0] == UnwrapNode(ns[0]);
        } else {
          assert r[i] == Unwrap(ns[1..])[i - 1];
          assert ns[i] == ns[1..][i - 1];
        }
      }
    }
  }

  lemma {:induction false} UnwrapConcat(a: seq<Node>, b: seq<Node>)
    ensures Unwrap(a + b) == Unwrap(a) + Unwrap(b)
    decreases a
  {
    if a == [] {
      assert a + b == b;
    } else {
      assert (a + b)[0] == a[0];
      assert (a + b)[1..] == a[1..] + b;
      UnwrapConcat(a[1..], b);
    }
  }

  /** A forest with no marks is left alone by un-wrapping. */
  lemma {:induction false} UnwrapMarkFree(ns: seq<Node>)
    requires Marks(ns) == []
    ensures Unwrap(ns) == ns
    decreases ns
  {
    if ns != [] {
      UnwrapNodeMarkFree(ns[0]);
      UnwrapMarkFree(ns[1..]);
    }
  }

  lemma {:induction false} UnwrapNodeMarkFree(n: Node)
    requires NodeMarks(n) == []
    ensures UnwrapNode(n) == n
    decreases n
  {
    match n
    case Text(_) =>
    case Elem(_, _, kids) => UnwrapMarkFree(kids);
    case Mark(_, _) =>
  }

  /**
   * A forest in the shape `normalize()` leaves: no empty text node, no two
   * adjacent text nodes, at any depth.
   */
  predicate Normal(ns: seq<Node>)
    decreases ns
  {
    ns == [] ||
    (&& NodeNormal(ns[0])
     && (|ns| >= 2 ==> !(ns[0].Text? && ns[1].Text?))
     && Normal(ns[1..]))
  }

  predicate NodeNormal(n: Node)
    decreases n
  {
    match n
    case Text(v) => v != []
    case Elem(_, _, kids) => Normal(kids)
    case Mark(_, _) => true
  }

  /** The text node a pending run of text becomes: none at all when the run is empty. */
  function Flush(acc: string): (r: seq<Node>)
    ensures Normal(r) && Marks(r) == [] && TextContent(r) == acc
  {
    if acc == [] then []
    else
      assert [Text(acc)][1..] == [];
      assert Normal([Text(acc)][1..]);
      [Text(acc)]
  }

  /** Putting a non-text node between two normal forests gives a normal forest. */
  lemma {:induction false} NormalJoin(a: seq<Node>, e: Node, b: seq<Node>)
    requires Normal(a) && NodeNormal(e) && !e.Text? && Normal(b)
    ensures Normal(a + [e] + b)
    decreases a
  {
    if a == [] {
      assert a + [e] + b == [e] + b;
      assert ([e] + b)[1..] == b;
    } else {
      assert (a + [e] + b)[1..] == a[1..] + [e] + b;
      NormalJoin(a[1..], e, b);
    }
  }

  /** What a forest of the form `x + [e] + y` holds, in terms of its three parts. */
  lemma {:induction false} JoinParts(x: seq<Node>, e: Node, y: seq<Node>)
    ensures Marks(x + [e] + y) == Marks(x) + NodeMarks(e) + Marks(y)
    ensures TextContent(x + [e] + y) == TextContent(x) + NodeTextContent(e) + TextContent(y)
  {
    JoinMarks(x, e, y);
    JoinText(x, e, y);
  }

  lemma {:induction false} JoinMarks(x: seq<Node>, e: Node, y: seq<Node>)
    ensures Marks(x + [e] + y) == Marks(x) + NodeMarks(e) + Marks(y)
  {
    MarksConcat(x + [e], y);
    MarksConcat(x, [e]);
    MarksSingleton(e);
  }

  lemma {:induction false} JoinText(x: seq<Node>, e: Node, y: seq<Node>)
    ensures TextContent(x + [e] + y) == TextContent(x) + NodeTextContent(e) + TextContent(y)
  {
    TextContentConcat(x + [e], y);
    TextContentConcat(x, [e]);
    TextContentSingleton(e);
  }

  /** The text of a one-node forest is the text of that node. */
  lemma {:induction false} TextContentSingleton(n: Node)
    ensures TextContent([n]) == NodeTextContent(n)
  {
    assert [n][1..] == [];
  }

  /**
   * `normalize()` over a forest, with `acc` the text of the run of text
   * nodes met so far: adjacent text nodes merge into one, empty ones
   * disappear, and every element is normalized in turn.
   */
  function NormAcc(ns: seq<Node>, acc: string): (r: seq<Node>)
    decreases ns
  {
    if ns == [] then Flush(acc)
    else
      match ns[0]
      case Text(v) => NormAcc(ns[1..], acc + v)
      case Elem(name, hidden, kids) => Flush(acc) + [Elem(name, hidden, NormAcc(kids, []))] + NormAcc(ns[1..], [])
      case Mark(_, _) => Flush(acc) + [ns[0]] + NormAcc(ns[1..], [])
  }

  /**
   * What a node that is not text becomes under `normalize()`: an element
   * with its children normalized, or the mark itself.
   */
  function NormNode(n: Node): (r: Node)
    requires !n.Text?
  {
    if n.Elem? then Elem(n.name, n.hidden, NormAcc(n.kids, [])) else n
  }

  /** One step of `normalize()`: a node that is not text ends the pending run. */
  lemma {:induction false} NormAccNonText(ns: seq<Node>, acc: string)
    requires ns != [] && !ns[0].Text?
    ensures NormAcc(ns, acc) == Flush(acc) + [NormNode(ns[0])] + NormAcc(ns[1..], [])
  {
  }

  /** One step of `normalize()`: a text node joins the pending run. */
  lemma {:induction false} NormAccTextHead(ns: seq<Node>, acc: string)
    requires ns != [] && ns[0].Text?
    ensures NormAcc(ns, acc) == NormAcc(ns[1..], acc + ns[0].value)
  {
  }

  /** The node `normalize()` makes of a node that is not text keeps its marks and text. */
  lemma {:induction false} NormNodeKeeps(n: Node)
    requires !n.Text?
    requires n.Elem? ==> Marks(NormAcc(n.kids, [])) == Marks(n.kids)
    requires n.Elem? ==> TextContent(NormAcc(n.kids, [])) == TextContent(n.kids)
    ensures NodeMarks(NormNode(n)) == NodeMarks(n)
    ensures NodeTextContent(NormNode(n)) == NodeTextContent(n)
  {
  }

  /** The marks and text of a forest that starts with a node that is not text, once normalized. */
  lemma {:induction false} NormAccNonTextParts(ns: seq<Node>, acc: string)
    requires ns != [] && !ns[0].Text?
    ensures Marks(NormAcc(ns, acc)) == NodeMarks(NormNode(ns[0])) + Marks(NormAcc(ns[1..], []))
    ensures TextContent(NormAcc(ns, acc)) == acc + NodeTextContent(NormNode(ns[0])) + TextContent(NormAcc(ns[1..], []))
  {
    NormAccNonText(ns, acc);
    JoinParts(Flush(acc), NormNode(ns[0]), NormAcc(ns[1..], []));
  }

  lemma {:induction false} NormAccMarks(ns: seq<Node>, acc: string)
    ensures Marks(NormAcc(ns, acc)) == Marks(ns)
    decreases ns
  {
    if ns != [] {
      var n, rest := ns[0], ns[1..];
      assert Marks(ns) == NodeMarks(n) + Marks(rest);
      if n.Text? {
        NormAccMarks(rest, acc + n.value);
      } else {
        NormAccMarks(rest, []);
        if n.Elem? {
          NormAccMarks(n.kids, []);
          NormAccText(n.kids, []);
        }
        NormNodeKeeps(n);
        NormAccNonTextParts(ns, acc);
      }
    }
  }

  lemma {:induction false} NormAccText(ns: seq<Node>, acc: string)
    ensures TextContent(NormAcc(ns, acc)) == acc + TextContent(ns)
    decreases ns
  {
    if ns != [] {
      var n, rest := ns[0], ns[1..];
      if n.Text? {
        NormAccText(rest, acc + n.value);
        NormAccTextStepText(ns, acc);
      } else {
        NormAccText(rest, []);
        if n.Elem? {
          NormAccMarks(n.kids, []);
          NormAccText(n.kids, []);
        }
        NormNodeKeeps(n);
        NormAccTextStepOther(ns, acc);
      }
    }
  }

  lemma {:induction false} NormAccTextStepText(ns: seq<Node>, acc: string)
    requires ns != [] && ns[0].Text?
    requires TextContent(NormAcc(ns[1..], acc + ns[0].value)) == acc + ns[0].value + TextContent(ns[1..])
    ensures TextContent(NormAcc(ns, acc)) == acc + TextContent(ns)
  {
    NormAccTextHead(ns, acc);
    assert TextContent(ns) == ns[0].value + TextContent(ns[1..]);
    ConcatAssoc(acc, ns[0].value, TextContent(ns[1..]));
  }

  lemma {:induction false} NormAccTextStepOther(ns: seq<Node>, acc: string)
    requires ns != [] && !ns[0].Text?
    requires TextContent(NormAcc(ns[1..], [])) == TextContent(ns[1..])
    requires NodeTextContent(NormNode(ns[0])) == NodeTextContent(ns[0])
    ensures TextContent(NormAcc(ns, acc)) == acc + TextContent(ns)
  {
    NormAccNonTextParts(ns, acc);
    assert TextContent(ns) == NodeTextContent(ns[0]) + TextContent(ns[1..]);
    ConcatAssoc(acc, NodeTextContent(ns[0]), TextContent(ns[1..]));
  }

  lemma {:induction false} NormAccNormal(ns: seq<Node>, acc: string)
    ensures Normal(NormAcc(ns, acc))
    decreases ns
  {
    if ns != [] {
      var n, rest := ns[0], ns[1..];
      if n.Text? {
        NormAccNormal(rest, acc + n.value);
      } else {
        NormAccNormal(rest, []);
        if n.Elem? {
          NormAccNormal(n.kids, []);
        }
        NormAccNonText(ns, acc);
        NormalJoin(Flush(acc), NormNode(n), NormAcc(rest, []));
      }
    }
  }

  /** `normalize()` on the children of a node. */
  function Normalize(ns: seq<Node>): (r: seq<Node>)
    ensures Normal(r)
    ensures Marks(r) == Marks(ns)
    ensures TextContent(r) == TextContent(ns)
  {
    NormAccNormal(ns, []);
    NormAccMarks(ns, []);
    NormAccText(ns, []);
    NormAcc(ns, [])
  }

  /**
   * A forest already in normal shape, read with a pending run `acc` that
   * is not followed by text, comes back unchanged behind that run.
   */
  lemma {:induction false} NormAccOfNormal(ns: seq<Node>, acc: string)
    requires Normal(ns)
    requires acc != [] ==> ns == [] || !ns[0].Text?
    ensures NormAcc(ns, acc) == Flush(acc) + ns
    decreases ns
  {
    if ns != [] {
      var n, rest := ns[0], ns[1..];
      NormalParts(ns);
      if n.Text? {
        NormAccOfNormal(rest, n.value);
        NormalStepText(ns, acc);
      } else {
        NormAccOfNormal(rest, []);
        if n.Elem? {
          NormAccOfNormal(n.kids, []);
        }
        NormalStepOther(ns, acc);
      }
    }
  }

  /** What `Normal` says about the head and the tail of a forest. */
  lemma {:induction false} NormalParts(ns: seq<Node>)
    requires Normal(ns) && ns != []
    ensures NodeNormal(ns[0]) && Normal(ns[1..])
    ensures ns[0].Text? ==> ns[0].value != [] && (ns[1..] == [] || !ns[1..][0].Text?)
  {
  }

  lemma {:induction false} NormalStepText(ns: seq<Node>, acc: string)
    requires ns != [] && ns[0].Text? && ns[0].value != [] && acc == []
    requires NormAcc(ns[1..], ns[0].value) == Flush(ns[0].value) + ns[1..]
    ensures NormAcc(ns, acc) == Flush(acc) + ns
  {
    NormAccTextHead(ns, acc);
    assert acc + ns[0].value == ns[0].value;
    assert Flush(ns[0].value) == [ns[0]];
    assert Flush(acc) == [];
    HeadTail(ns);
  }

  lemma {:induction false} NormalStepOther(ns: seq<Node>, acc: string)
    requires ns != [] && !ns[0].Text?
    requires NormAcc(ns[1..], []) == Flush([]) + ns[1..]
    requires ns[0].Elem? ==> NormAcc(ns[0].kids, []) == Flush([]) + ns[0].kids
    ensures NormAcc(ns, acc) == Flush(acc) + ns
  {
    NormNodeOfNormal(ns[0]);
    NoFlush(ns[1..]);
    NormAccNonText(ns, acc);
    ConsRebuild(Flush(acc), ns);
  }

  /** An empty pending run adds nothing in front of a forest. */
  lemma {:induction false} NoFlush(ns: seq<Node>)
    ensures Flush([]) + ns == ns
  {
  }

  /** A node that is not text, with children already normal, is its own normal form. */
  lemma {:induction false} NormNodeOfNormal(n: Node)
    requires !n.Text?
    requires n.Elem? ==> NormAcc(n.kids, []) == Flush([]) + n.kids
    ensures NormNode(n) == n
  {
    if n.Elem? {
      NoFlush(n.kids);
    }
  }

  lemma {:induction false} ConsRebuild(f: seq<Node>, ns: seq<Node>)
    requires ns != []
    ensures f + [ns[0]] + ns[1..] == f + ns
  {
    HeadTail(ns);
  }

  /** `normalize()` leaves a normal forest alone, so normalizing twice is normalizing once. */
  lemma {:induction false} NormalizeIdempotent(ns: seq<Node>)
    ensures Normal(ns) ==> Normalize(ns) == ns
    ensures Normalize(Normalize(ns)) == Normalize(ns)
  {
    if Normal(ns) {
      NormAccOfNormal(ns, []);
    }
    NormAccOfNormal(Normalize(ns), []);
  }

  /** A leading text node joins the pending run. */
  lemma {:induction false} NormAccText1(a: string, rest: seq<Node>, acc: string)
    ensures NormAcc([Text(a)] + rest, acc) == NormAcc(rest, acc + a)
  {
    ConsParts(Text(a), rest);
  }

  /** A leading element is normalized on its own, between the flushed run and the rest. */
  lemma {:induction false} NormAccElem(name: string, hidden: bool, kids: seq<Node>, rest: seq<Node>, acc: string)
    ensures NormAcc([Elem(name, hidden, kids)] + rest, acc)
         == Flush(acc) + [Elem(name, hidden, NormAcc(kids, []))] + NormAcc(rest, [])
  {
    ConsParts(Elem(name, hidden, kids), rest);
  }

  /**
   * Three adjacent text nodes normalize as the single text node of their
   * joined text: the shape clear relies on to undo a split.
   */
  lemma {:induction false} NormAccMergesText(a: string, b: string, c: string, rest: seq<Node>, acc: string)
    ensures NormAcc([Text(a), Text(b), Text(c)] + rest, acc) == NormAcc(rest, acc + (a + b + c))
  {
    assert [Text(a), Text(b), Text(c)] + rest == [Text(a)] + ([Text(b)] + ([Text(c)] + rest));
    NormAccText1(a, [Text(b)] + ([Text(c)] + rest), acc);
    NormAccText1(b, [Text(c)] + rest, acc + a);
    NormAccText1(c, rest, acc + a + b);
    assert acc + a + b + c == acc + (a + b + c);
  }

  /** The page's own example: "The " "dev" "eloper" under one element normalizes to "The developer". */
  lemma {:induction false} NormalizeExample()
    ensures Normalize([Elem("P", false, [Text("The "), Text("dev"), Text("eloper")])])
         == [Elem("P", false, [Text("The developer")])]
  {
    NormAccMergesText("The ", "dev", "eloper", [], []);
    assert [Text("The "), Text("dev"), Text("eloper")] + [] == [Text("The "), Text("dev"), Text("eloper")];
    assert [] + ("The " + "dev" + "eloper") == "The developer";
  }

  /**
   * A node that is not text splits `normalize()` in two: the text before it
   * is merged on its own, the node stays in place with its children
   * normalized, and the rest is normalized from a fresh run.
   */
  lemma {:induction false} NormalizeSplitsAtNonText(a: seq<Node>, e: Node, b: seq<Node>)
    requires !e.Text?
    ensures e.Mark? ==> Normalize(a + [e] + b) == Normalize(a) + [e] + Normalize(b)
    ensures e.Elem? ==> Normalize(a + [e] + b) == Normalize(a) + [Elem(e.name, e.hidden, Normalize(e.kids))] + Normalize(b)
  {
    NormAccSplitsAtNonText(a, e, b, []);
  }

  lemma {:induction false} NormAccSplitsAtNonText(a: seq<Node>, e: Node, b: seq<Node>, acc: string)
    requires !e.Text?
    decreases a
    ensures NormAcc(a + [e] + b, acc) == NormAcc(a, acc) + [NormNode(e)] + NormAcc(b, [])
  {
    if a == [] {
      assert a + [e] + b == [e] + b;
      ConsParts(e, b);
      NormAccNonText([e] + b, acc);
    } else {
      var t := a[1..];
      ConcatAssoc(a, [e], b);
      TailOfConcat(a, [e] + b);
      ConcatAssoc(t, [e], b);
      if a[0].Text? {
        NormAccTextHead(a + [e] + b, acc);
        NormAccTextHead(a, acc);
        NormAccSplitsAtNonText(t, e, b, acc + a[0].value);
      } else {
        NormAccNonText(a + [e] + b, acc);
        NormAccNonText(a, acc);
        NormAccSplitsAtNonText(t, e, b, []);
        Regroup(Flush(acc), [NormNode(a[0])], NormAcc(t, []), [NormNode(e)], NormAcc(b, []));
      }
    }
  }

  /**
   * A forest of text nodes alone normalizes to one text node holding all
   * their text, or to nothing when that text is empty.
   */
  lemma {:induction false} NormalizeAllText(ns: seq<Node>)
    requires forall i :: 0 <= i < |ns| ==> ns[i].Text?
    ensures Normalize(ns) == if TextContent(ns) == [] then [] else [Text(TextContent(ns))]
  {
    NormAccAllText(ns, []);
    assert [] + TextContent(ns) == TextContent(ns);
  }

  lemma {:induction false} NormAccAllText(ns: seq<Node>, acc: string)
    requires forall i :: 0 <= i < |ns| ==> ns[i].Text?
    decreases ns
    ensures NormAcc(ns, acc) == Flush(acc + TextContent(ns))
  {
    if ns == [] {
      assert acc + [] == acc;
    } else {
      NormAccTextHead(ns, acc);
      NormAccAllText(ns[1..], acc + ns[0].value);
      assert acc + ns[0].value + TextContent(ns[1..]) == acc + (ns[0].value + TextContent(ns[1..]));
    }
  }

  /**
   * A list of marks with the `k`-th one's `current_match` class set to
   * `flag`; an index outside the list changes nothing.
   */
  function FlagMark(ms: seq<Node>, k: int, flag: bool): (r: seq<Node>)
    requires forall i :: 0 <= i < |ms| ==> ms[i].Mark?
  {
    if 0 <= k < |ms| then ms[k := Mark(flag, ms[k].text)] else ms
  }

  lemma {:induction false} FlagMarkConcat(a: seq<Node>, b: seq<Node>, k: int, flag: bool)
    requires forall i :: 0 <= i < |a| ==> a[i].Mark?
    requires forall i :: 0 <= i < |b| ==> b[i].Mark?
    ensures FlagMark(a + b, k, flag) == FlagMark(a, k, flag) + FlagMark(b, k - |a|, flag)
  {
  }

  /**
   * Sets or removes the `current_match` class of the `k`-th mark of the
   * forest in document order (`markedStrings[k].className = ...`).
   * Only that mark's flag changes: the marks keep their order and text and
   * the page's text and structure stay as they were.
   */
  function SetMarkFlag(ns: seq<Node>, k: int, flag: bool): (r: seq<Node>)
    decreases ns
    ensures Marks(r) == FlagMark(Marks(ns), k, flag)
    ensures Unwrap(r) == Unwrap(ns)
    ensures ClearFlags(r) == ClearFlags(ns)
  {
    if ns == [] then []
    else
      var head := SetMarkFlagNode(ns[0], k, flag);
      var rest := SetMarkFlag(ns[1..], k - |NodeMarks(ns[0])|, flag);
      ConsParts(head, rest);
      FlagMarkConcat(NodeMarks(ns[0]), Marks(ns[1..]), k, flag);
      [head] + rest
  }

  function SetMarkFlagNode(n: Node, k: int, flag: bool): (r: Node)
    decreases n
    ensures NodeMarks(r) == FlagMark(NodeMarks(n), k, flag)
    ensures UnwrapNode(r) == UnwrapNode(n)
    ensures ClearFlagsNode(r) == ClearFlagsNode(n)
  {
    match n
    case Text(_) => n
    case Elem(name, hidden, kids) => Elem(name, hidden, SetMarkFlag(kids, k, flag))
    case Mark(_, t) => if k == 0 then Mark(flag, t) else n
  }

  /**
   * The forest with the `current_match` class taken off every mark: all of
   * the page that setting or removing that class cannot change.
   */
  function ClearFlags(ns: seq<Node>): (r: seq<Node>)
    decreases ns
    ensures |r| == |ns|
  {
    if ns == [] then [] else [ClearFlagsNode(ns[0])] + ClearFlags(ns[1..])
  }

  function ClearFlagsNode(n: Node): (r: Node)
    decreases n
  {
    match n
    case Text(_) => n
    case Elem(name, hidden, kids) => Elem(name, hidden, ClearFlags(kids))
    case Mark(_, t) => Mark(false, t)
  }

  /** Taking the flags off keeps the number of marks. */
  lemma {:induction false} ClearFlagsMarkCount(ns: seq<Node>)
    decreases ns
    ensures |Marks(ClearFlags(ns))| == |Marks(ns)|
  {
    if ns != [] {
      ConsParts(ClearFlagsNode(ns[0]), ClearFlags(ns[1..]));
      ClearFlagsNodeMarkCount(ns[0]);
      ClearFlagsMarkCount(ns[1..]);
    }
  }

  lemma {:induction false} ClearFlagsNodeMarkCount(n: Node)
    decreases n
    ensures |NodeMarks(ClearFlagsNode(n))| == |NodeMarks(n)|
  {
    match n
    case Text(_) =>
    case Elem(_, _, kids) => ClearFlagsMarkCount(kids);
    case Mark(_, _) =>
  }

  /**
   * Two forests that agree once the flags are taken off, and whose marks
   * agree flag for flag, are the same forest: a mark's flag is the only
   * thing `ClearFlags` forgets.
   */
  lemma {:induction false} FlagsAndMarksDetermineForest(a: seq<Node>, b: seq<Node>)
    requires ClearFlags(a) == ClearFlags(b) && Marks(a) == Marks(b)
    decreases a
    ensures a == b
  {
    if a != [] {
      assert b != [];
      ConsParts(ClearFlagsNode(a[0]), ClearFlags(a[1..]));
      ConsParts(ClearFlagsNode(b[0]), ClearFlags(b[1..]));
      ClearFlagsNodeMarkCount(a[0]);
      ClearFlagsNodeMarkCount(b[0]);
      SplitEqual(NodeMarks(a[0]), Marks(a[1..]), NodeMarks(b[0]), Marks(b[1..]));
      FlagsAndMarksDetermineNode(a[0], b[0]);
      FlagsAndMarksDetermineForest(a[1..], b[1..]);
      HeadTail(a);
      HeadTail(b);
    }
  }

  lemma {:induction false} FlagsAndMarksDetermineNode(x: Node, y: Node)
    requires ClearFlagsNode(x) == ClearFlagsNode(y) && NodeMarks(x) == NodeMarks(y)
    decreases x
    ensures x == y
  {
    match x
    case Text(_) =>
    case Elem(_, _, kids) => FlagsAndMarksDetermineForest(kids, y.kids);
    case Mark(_, _) =>
  }

  /** Setting a mark's flag keeps every mark's text, so the registry still names the same marks. */
  lemma {:induction false} SetMarkFlagKeepsTexts(ns: seq<Node>, k: int, flag: bool)
    ensures MarkTexts(SetMarkFlag(ns, k, flag)) == MarkTexts(ns)
  {
  }
}

=== FILE: highlight.dfy ===
/**
 * The highlight pass (`highlightMatches`) and its filter
 * (`shouldNotHighlight`, `anyParent`).
 *
 * The node iterator collects, in document order, every text node whose
 * value the pattern matches, before anything is changed. Each collected
 * node then either is skipped (its parent is a script, or it sits under an
 * element with `display: none`) or is split into the text before the match,
 * a new `<mark>` holding `match[0]`, and the text after it; the mark is
 * pushed onto the registry. Because the collection happens before any
 * mutation, the pass is a function of the original tree: the forest
 * recursion below visits text nodes in the iterator's order, and the
 * list-based `Registry` over `Candidates` is the iterator-then-loop reading
 * of the same pass.
 */
module Highlight {
  import opened Wrappers
  import opened Strings
  import opened Matcher
  import opened Dom
  import opened Seqs

  /** An element on the way from `<body>` down to a text node's parent. */
  datatype Ancestor = Ancestor(name: string, hidden: bool)

  /** A text node the node iterator accepted, with the chain of elements above it (parent last). */
  datatype Candidate = Candidate(value: string, path: seq<Ancestor>)

  /**
   * Where the split is made. `IndexOfJoined` is what the page script does:
   * `textContent.indexOf(match)`, which turns the match array into its
   * comma-joined string before searching. `MatchPosition` splits where the
   * regular expression matched.
   */
  datatype OffsetRule = IndexOfJoined | MatchPosition

  /** The element predicate `shouldNotHighlight` hands to `anyParent`: computed `display` is `none`. */
  predicate IsHidden(a: Ancestor)
  {
    a.hidden
  }

  /** `anyParent`: some element of the chain, the parent included, satisfies `pred`. */
  predicate AnyParent(path: seq<Ancestor>, pred: Ancestor -> bool)
  {
    exists i :: 0 <= i < |path| && pred(path[i])
  }

  /**
   * `shouldNotHighlight(parent)`: the parent's `nodeName` contains
   * "SCRIPT", or the parent or one of its ancestors is not displayed.
   */
  predicate ShouldNotHighlight(path: seq<Ancestor>)
    requires |path| > 0
  {
    Contains(path[|path| - 1].name, "SCRIPT") || AnyParent(path, IsHidden)
  }

  /**
   * `anyParent` collects the chain by walking up from the node; extending
   * the chain by one element adds exactly that element's test, and the
   * empty chain satisfies nothing.
   */
  lemma {:induction false} AnyParentExtend(path: seq<Ancestor>, a: Ancestor, pred: Ancestor -> bool)
    ensures !AnyParent([], pred)
    ensures AnyParent(path + [a], pred) <==> AnyParent(path, pred) || pred(a)
  {
    if AnyParent(path, pred) {
      var i :| 0 <= i < |path| && pred(path[i]);
      assert (path + [a])[i] == path[i];
    }
    if pred(a) {
      assert (path + [a])[|path|] == a;
    }
  }

  /**
   * Text anywhere below an element that is not displayed is skipped,
   * however deep it sits: the filter that keeps text in collapsed menus
   * unhighlighted.
   */
  lemma {:induction false} HiddenAncestorSkips(path: seq<Ancestor>, below: seq<Ancestor>)
    requires AnyParent(path, IsHidden) && |path + below| > 0
    ensures ShouldNotHighlight(path + below)
  {
    var i :| 0 <= i < |path| && IsHidden(path[i]);
    assert (path + below)[i] == path[i];
  }

  /** A displayed parent chain whose parent is not a script lets its text through. */
  lemma {:induction false} VisibleTextHighlighted(path: seq<Ancestor>)
    requires |path| > 0 && !Contains(path[|path| - 1].name, "SCRIPT")
    requires forall i :: 0 <= i < |path| ==> !path[i].hidden
    ensures !ShouldNotHighlight(path)
  {
    assert forall i :: 0 <= i < |path| ==> !IsHidden(path[i]);
  }

  /** Candidates as the iterator yields them: each one matches and has a parent. */
  predicate ValidCandidates(cs: seq<Candidate>, p: Pattern)
  {
    forall i :: 0 <= i < |cs| ==> Match(p, cs[i].value).Some? && |cs[i].path| > 0
  }

  /** The text nodes of a forest the node iterator yields, in document order. */
  function Candidates(ns: seq<Node>, path: seq<Ancestor>, p: Pattern): (r: seq<Candidate>)
    requires |path| > 0
    decreases ns
    ensures ValidCandidates(r, p)
  {
    if ns == [] then [] else NodeCandidates(ns[0], path, p) + Candidates(ns[1..], path, p)
  }

  function NodeCandidates(n: Node, path: seq<Ancestor>, p: Pattern): (r: seq<Candidate>)
    requires |path| > 0
    decreases n
    ensures ValidCandidates(r, p)
  {
    match n
    case Text(v) => if Match(p, v).Some? then [Candidate(v, path)] else []
    case Elem(name, hidden, kids) => Candidates(kids, path + [Ancestor(name, hidden)], p)
    case Mark(_, _) => []
  }

  /**
   * The registry the loop over the candidates builds: `match[0]` of every
   * candidate that is not skipped, in candidate order.
   */
  function Registry(cs: seq<Candidate>, p: Pattern): (r: seq<string>)
    requires ValidCandidates(cs, p)
    ensures |r| <= |cs|
  {
    if cs == [] then [] else RegistryHead(cs[0], p) + Registry(cs[1..], p)
  }

  /** What the loop registers for one candidate: nothing when it is skipped, else `match[0]`. */
  function RegistryHead(c: Candidate, p: Pattern): (r: seq<string>)
    requires Match(p, c.value).Some? && |c.path| > 0
    ensures |r| <= 1
  {
    if ShouldNotHighlight(c.path) then [] else [Match(p, c.value).value[0]]
  }

  /** Every registered string is the search text, up to case under the `i` flag. */
  lemma {:induction false} RegistryMatchesText(cs: seq<Candidate>, p: Pattern)
    requires ValidCandidates(cs, p)
    decreases cs
    ensures forall k :: 0 <= k < |Registry(cs, p)| ==> SameText(p, Registry(cs, p)[k])
  {
    if cs != [] {
      RegistryCons(cs, p);
      RegistryMatchesText(cs[1..], p);
      var h := RegistryHead(cs[0], p);
      if h != [] {
        var i := FirstMatch(p, cs[0].value).value;
        assert MatchesAt(p, cs[0].value, i);
      }
    }
  }

  /** One step of the loop: the first candidate's entry, then the rest. */
  lemma {:induction false} RegistryCons(cs: seq<Candidate>, p: Pattern)
    requires ValidCandidates(cs, p) && cs != []
    ensures ValidCandidates(cs[1..], p)
    ensures Registry(cs, p) == RegistryHead(cs[0], p) + Registry(cs[1..], p)
  {
  }

  /** The loop registers nothing exactly when every candidate is skipped. */
  lemma {:induction false} RegistryEmptyIffAllSkipped(cs: seq<Candidate>, p: Pattern)
    requires ValidCandidates(cs, p)
    decreases cs
    ensures Registry(cs, p) == [] <==> forall i :: 0 <= i < |cs| ==> ShouldNotHighlight(cs[i].path)
  {
    if cs != [] {
      RegistryEmptyIffAllSkipped(cs[1..], p);
      assert forall i :: 1 <= i < |cs| ==> cs[i] == cs[1..][i - 1];
    }
  }

  lemma {:induction false} ValidCandidatesConcat(a: seq<Candidate>, b: seq<Candidate>, p: Pattern)
    requires ValidCandidates(a, p) && ValidCandidates(b, p)
    ensures ValidCandidates(a + b, p)
  {
  }

  lemma {:induction false} RegistryConcat(a: seq<Candidate>, b: seq<Candidate>, p: Pattern)
    requires ValidCandidates(a, p) && ValidCandidates(b, p)
    ensures ValidCandidates(a + b, p)
    ensures Registry(a + b, p) == Registry(a, p) + Registry(b, p)
    decreases a
  {
    ValidCandidatesConcat(a, b, p);
    if a == [] {
      assert a + b == b;
    } else {
      RegistryCons(a, p);
      RegistryConcat(a[1..], b, p);
      RegistryConcatStep(a, b, p);
    }
  }

  lemma {:induction false} RegistryConcatStep(a: seq<Candidate>, b: seq<Candidate>, p: Pattern)
    requires a != [] && ValidCandidates(a, p) && ValidCandidates(a + b, p) && ValidCandidates(a[1..], p) && ValidCandidates(b, p)
    requires ValidCandidates(a[1..] + b, p)
    requires Registry(a[1..] + b, p) == Registry(a[1..], p) + Registry(b, p)
    requires Registry(a, p) == RegistryHead(a[0], p) + Registry(a[1..], p)
    ensures Registry(a + b, p) == Registry(a, p) + Registry(b, p)
  {
    var ab := a + b;
    TailOfConcat(a, b);
    RegistryCons(ab, p);
    var h, x, y := RegistryHead(a[0], p), Registry(a[1..], p), Registry(b, p);
    ConcatAssoc(h, x, y);
  }

  /** Where the split is made in text `v`; -1 when `indexOf` finds nothing. */
  function SplitOffset(v: string, p: Pattern, rule: OffsetRule): int
    requires Match(p, v).Some?
  {
    match rule
    case IndexOfJoined => IndexOf(v, JoinComma(Match(p, v).value))
    case MatchPosition => FirstMatch(p, v).value
  }

  /**
   * What the split offset is under each rule: for the page script, the
   * first occurrence of the comma-joined match list, or -1; for the
   * corrected rule, the leftmost offset where the pattern matches.
   */
  lemma {:induction false} SplitOffsetMeaning(v: string, p: Pattern, rule: OffsetRule)
    requires Match(p, v).Some?
    ensures rule.IndexOfJoined? ==> FirstOccurrence(v, JoinComma(Match(p, v).value), SplitOffset(v, p, rule))
    ensures rule.MatchPosition? ==>
              && SplitOffset(v, p, rule) >= 0
              && MatchesAt(p, v, SplitOffset(v, p, rule))
              && (forall j {:trigger MatchesAt(p, v, j)} :: 0 <= j < SplitOffset(v, p, rule) ==> !MatchesAt(p, v, j))
  {
    if rule.IndexOfJoined? {
      var joined := JoinComma(Match(p, v).value);
      IndexOfIsFirst(v, joined);
      var start := IndexOf(v, joined);
      if start != -1 {
        assert OccursAt(v, joined, start);
      }
    } else {
      ScanIsLeftmost(p, v, 0);
    }
  }

  /** A non-negative offset is an occurrence of `match[0]`. */
  lemma {:induction false} OffsetFoundIsOccurrence(v: string, p: Pattern, rule: OffsetRule)
    requires Match(p, v).Some?
    ensures var start := SplitOffset(v, p, rule);
            start >= 0 ==> OccursAt(v, Match(p, v).value[0], start)
  {
    var m := Match(p, v).value;
    var start := SplitOffset(v, p, rule);
    if start >= 0 {
      if rule.IndexOfJoined? {
        assert OccursAt(v, JoinComma(m), start);
      }
      assert v[start..start + |m[0]|] == m[0];
    }
  }

  /**
   * The three nodes that replace a highlighted text node: the text before
   * the offset, a fresh mark without the `current_match` class holding
   * `match[0]`, and the text from `offset + |match[0]|` on (both cut with
   * `substring`, which reads a negative index as 0).
   */
  function Split(v: string, p: Pattern, rule: OffsetRule): (r: seq<Node>)
    requires Match(p, v).Some?
    ensures |r| == 3 && r[0].Text? && r[2].Text?
    ensures r[1] == Mark(false, Match(p, v).value[0])
    ensures SplitOffset(v, p, rule) >= 0 ==>
              && r[0].value + r[1].text + r[2].value == v
              && |r[0].value| == SplitOffset(v, p, rule)
  {
    OffsetFoundIsOccurrence(v, p, rule);
    Cut(v, SplitOffset(v, p, rule), Match(p, v).value[0])
  }

  /**
   * Text `v` cut around a fresh mark holding `m0` placed at `start`; when
   * `m0` occurs there, the pieces give back the text.
   */
  function Cut(v: string, start: int, m0: string): (r: seq<Node>)
    ensures |r| == 3 && r[0].Text? && r[2].Text?
    ensures r[1] == Mark(false, m0)
    ensures OccursAt(v, m0, start) ==>
              && r[0].value + r[1].text + r[2].value == v
              && |r[0].value| == start
  {
    assert OccursAt(v, m0, start) ==> v[..start] + v[start..start + |m0|] + v[start + |m0|..] == v;
    [Text(Substring(v, 0, start)), Mark(false, m0), Text(Substring(v, start + |m0|, |v|))]
  }

  /** The highlight pass over a forest whose parent chain is `path`. */
  function HighlightForest(ns: seq<Node>, path: seq<Ancestor>, p: Pattern, rule: OffsetRule): seq<Node>
    requires |path| > 0
    decreases ns
  {
    if ns == [] then [] else HighlightNode(ns[0], path, p, rule) + HighlightForest(ns[1..], path, p, rule)
  }

  /**
   * The highlight pass over one node. A `Mark` is left alone: the pass
   * runs right after clear, so the tree it sees holds no marks.
   */
  function HighlightNode(n: Node, path: seq<Ancestor>, p: Pattern, rule: OffsetRule): seq<Node>
    requires |path| > 0
    decreases n
  {
    match n
    case Text(v) =>
      if Match(p, v).Some? && !ShouldNotHighlight(path) then Split(v, p, rule) else [n]
    case Elem(name, hidden, kids) =>
      [Elem(name, hidden, HighlightForest(kids, path + [Ancestor(name, hidden)], p, rule))]
    case Mark(_, _) => [n]
  }

  /**
   * Without "whole words" the pattern matches exactly where the search
   * text occurs: as written under "match case", and in the case-folded
   * copies of both strings otherwise.
   */
  lemma {:induction false} SubstringPatternIsOccurrence(p: Pattern, s: string, i: int)
    requires !p.wholeWord
    ensures !p.ignoreCase ==> (MatchesAt(p, s, i) <==> OccursAt(s, p.text, i))
    ensures p.ignoreCase ==> (MatchesAt(p, s, i) <==> OccursAt(Fold(s), Fold(p.text), i))
  {
    if p.ignoreCase && 0 <= i && i + |p.text| <= |s| {
      assert Fold(s)[i..i + |p.text|] == Fold(s[i..i + |p.text|]);
    }
  }

  /**
   * When every split lands on an occurrence of its match, the pass keeps
   * the page's `textContent`: each highlighted text node becomes the text
   * before the match, the match, and the text after it.
   */
  lemma {:induction false} HighlightKeepsText(ns: seq<Node>, path: seq<Ancestor>, p: Pattern, rule: OffsetRule)
    requires |path| > 0
    requires OffsetsFound(Candidates(ns, path, p), p, rule)
    ensures TextContent(HighlightForest(ns, path, p, rule)) == TextContent(ns)
    decreases ns
  {
    if ns != [] {
      OffsetsFoundSplit(NodeCandidates(ns[0], path, p), Candidates(ns[1..], path, p), p, rule);
      HighlightKeepsText(ns[1..], path, p, rule);
      NodeHighlightKeepsText(ns[0], path, p, rule);
      TextContentConcat(HighlightNode(ns[0], path, p, rule), HighlightForest(ns[1..], path, p, rule));
    }
  }

  lemma {:induction false} NodeHighlightKeepsText(n: Node, path: seq<Ancestor>, p: Pattern, rule: OffsetRule)
    requires |path| > 0
    requires OffsetsFound(NodeCandidates(n, path, p), p, rule)
    ensures TextContent(HighlightNode(n, path, p, rule)) == NodeTextContent(n)
    decreases n
  {
    match n
    case Text(v) =>
      if Match(p, v).Some? && !ShouldNotHighlight(path) {
        var c0 := NodeCandidates(Text(v), path, p);
        assert c0 == [Candidate(v, path)];
        assert c0[0].value == v && c0[0].path == path && !ShouldNotHighlight(c0[0].path);
        var r := Split(v, p, rule);
        TextContentThree(r);
      } else {
        TextContentSingleton(n);
      }
    case Elem(name, hidden, kids) =>
      HighlightKeepsText(kids, path + [Ancestor(name, hidden)], p, rule);
      TextContentSingleton(Elem(name, hidden, HighlightForest(kids, path + [Ancestor(name, hidden)], p, rule)));
    case Mark(_, _) =>
      TextContentSingleton(n);
  }

  lemma {:induction false} TextContentThree(r: seq<Node>)
    requires |r| == 3
    ensures TextContent(r) == NodeTextContent(r[0]) + NodeTextContent(r[1]) + NodeTextContent(r[2])
  {
    ThreeParts(r);
    TextContentConcat([r[0]] + [r[1]], [r[2]]);
    TextContentConcat([r[0]], [r[1]]);
    TextContentSingleton(r[0]);
    TextContentSingleton(r[1]);
    TextContentSingleton(r[2]);
  }

  /** The marks the pass creates for the given registry texts: none of them is current. */
  function FreshMarks(ts: seq<string>): (r: seq<Node>)
    ensures |r| == |ts|
    ensures forall i :: 0 <= i < |r| ==> r[i] == Mark(false, ts[i])
  {
    seq(|ts|, i requires 0 <= i < |ts| => Mark(false, ts[i]))
  }

  lemma {:induction false} FreshMarksConcat(a: seq<string>, b: seq<string>)
    ensures FreshMarks(a + b) == FreshMarks(a) + FreshMarks(b)
  {
  }

  /**
   * On a tree without marks, the marks the pass leaves are exactly the
   * registry built from the iterator's candidates, in the same order,
   * none of them current: one mark per candidate that is not skipped, and
   * none anywhere else.
   */
  lemma {:induction false} PassMarksFollowCandidates(ns: seq<Node>, path: seq<Ancestor>, p: Pattern, rule: OffsetRule)
    requires |path| > 0 && Marks(ns) == []
    ensures Marks(HighlightForest(ns, path, p, rule)) == FreshMarks(Registry(Candidates(ns, path, p), p))
    decreases ns
  {
    if ns != [] {
      var h := HighlightNode(ns[0], path, p, rule);
      var t := HighlightForest(ns[1..], path, p, rule);
      assert NodeMarks(ns[0]) == [] && Marks(ns[1..]) == [];
      NodePassMarksFollowCandidates(ns[0], path, p, rule);
      PassMarksFollowCandidates(ns[1..], path, p, rule);
      MarksConcat(h, t);
      var c0, cr := NodeCandidates(ns[0], path, p), Candidates(ns[1..], path, p);
      RegistryConcat(c0, cr, p);
      FreshMarksConcat(Registry(c0, p), Registry(cr, p));
    }
  }

  lemma {:induction false} NodePassMarksFollowCandidates(n: Node, path: seq<Ancestor>, p: Pattern, rule: OffsetRule)
    requires |path| > 0 && NodeMarks(n) == []
    ensures Marks(HighlightNode(n, path, p, rule)) == FreshMarks(Registry(NodeCandidates(n, path, p), p))
    decreases n
  {
    match n
    case Text(v) =>
      TextPassMarks(v, path, p, rule);
    case Elem(name, hidden, kids) =>
      PassMarksFollowCandidates(kids, path + [Ancestor(name, hidden)], p, rule);
      MarksSingleton(Elem(name, hidden, HighlightForest(kids, path + [Ancestor(name, hidden)], p, rule)));
  }

  lemma {:induction false} TextPassMarks(v: string, path: seq<Ancestor>, p: Pattern, rule: OffsetRule)
    requires |path| > 0
    ensures Marks(HighlightNode(Text(v), path, p, rule)) == FreshMarks(Registry(NodeCandidates(Text(v), path, p), p))
  {
    if Match(p, v).Some? {
      var c := Candidate(v, path);
      SingleCandidateRegistry(c, p);
      if !ShouldNotHighlight(path) {
        SplitMarks(v, p, rule);
      } else {
        MarksSingleton(Text(v));
      }
    } else {
      MarksSingleton(Text(v));
    }
  }

  lemma {:induction false} SingleCandidateRegistry(c: Candidate, p: Pattern)
    requires Match(p, c.value).Some? && |c.path| > 0
    ensures Registry([c], p) == RegistryHead(c, p)
  {
    RegistryCons([c], p);
    assert [c][1..] == [];
    assert RegistryHead(c, p) + [] == RegistryHead(c, p);
  }

  /** The split leaves one mark: the fresh one holding `match[0]`. */
  lemma {:induction false} SplitMarks(v: string, p: Pattern, rule: OffsetRule)
    requires Match(p, v).Some?
    ensures Marks(Split(v, p, rule)) == [Mark(false, Match(p, v).value[0])]
  {
    var s := Split(v, p, rule);
    ThreeParts(s);
    MarksConcat([s[0]] + [s[1]], [s[2]]);
    MarksConcat([s[0]], [s[1]]);
    MarksSingleton(s[0]);
    MarksSingleton(s[1]);
    MarksSingleton(s[2]);
  }

  /** Under an element with `display: none` the pass changes nothing. */
  lemma {:induction false} HiddenSubtreeUntouched(ns: seq<Node>, path: seq<Ancestor>, p: Pattern, rule: OffsetRule)
    requires |path| > 0 && AnyParent(path, IsHidden)
    ensures HighlightForest(ns, path, p, rule) == ns
    ensures Registry(Candidates(ns, path, p), p) == []
    decreases ns
  {
    if ns != [] {
      NodeHiddenUntouched(ns[0], path, p, rule);
      HiddenSubtreeUntouched(ns[1..], path, p, rule);
      HeadTail(ns);
      RegistryConcat(NodeCandidates(ns[0], path, p), Candidates(ns[1..], path, p), p);
    }
  }

  lemma {:induction false} NodeHiddenUntouched(n: Node, path: seq<Ancestor>, p: Pattern, rule: OffsetRule)
    requires |path| > 0 && AnyParent(path, IsHidden)
    ensures HighlightNode(n, path, p, rule) == [n]
    ensures Registry(NodeCandidates(n, path, p), p) == []
    decreases n
  {
    match n
    case Text(v) =>
    case Elem(name, hidden, kids) =>
      var path' := path + [Ancestor(name, hidden)];
      var i :| 0 <= i < |path| && IsHidden(path[i]);
      assert path'[i] == path[i];
      HiddenSubtreeUntouched(kids, path', p, rule);
    case Mark(_, _) =>
  }

  /**
   * The text children of an element whose name contains "SCRIPT" (a
   * `<script>` or `<noscript>`, which hold only text) are never split.
   */
  lemma {:induction false} ScriptTextUntouched(ns: seq<Node>, path: seq<Ancestor>, p: Pattern, rule: OffsetRule)
    requires |path| > 0 && Contains(path[|path| - 1].name, "SCRIPT")
    requires forall i :: 0 <= i < |ns| ==> ns[i].Text?
    ensures HighlightForest(ns, path, p, rule) == ns
    ensures Registry(Candidates(ns, path, p), p) == []
  {
    assert ShouldNotHighlight(path);
    SkippedTextUntouched(ns, path, p, rule);
  }

  /** Text nodes whose parent is skipped are neither split nor registered. */
  lemma {:induction false} SkippedTextUntouched(ns: seq<Node>, path: seq<Ancestor>, p: Pattern, rule: OffsetRule)
    requires |path| > 0 && ShouldNotHighlight(path)
    requires forall i :: 0 <= i < |ns| ==> ns[i].Text?
    ensures HighlightForest(ns, path, p, rule) == ns
    ensures Registry(Candidates(ns, path, p), p) == []
    decreases ns
  {
    if ns != [] {
      SkippedTextUntouched(ns[1..], path, p, rule);
      SkippedTextNodeUntouched(ns[0].value, path, p, rule);
      HeadTail(ns);
      RegistryConcat(NodeCandidates(ns[0], path, p), Candidates(ns[1..], path, p), p);
    }
  }

  lemma {:induction false} SkippedTextNodeUntouched(v: string, path: seq<Ancestor>, p: Pattern, rule: OffsetRule)
    requires |path| > 0 && ShouldNotHighlight(path)
    ensures HighlightNode(Text(v), path, p, rule) == [Text(v)]
    ensures Registry(NodeCandidates(Text(v), path, p), p) == []
  {
    if Match(p, v).Some? {
      SingleCandidateRegistry(Candidate(v, path), p);
    }
  }

  /** When no text node matches, the pass changes nothing. */
  lemma {:induction false} NoCandidatesUntouched(ns: seq<Node>, path: seq<Ancestor>, p: Pattern, rule: OffsetRule)
    requires |path| > 0 && Candidates(ns, path, p) == []
    ensures HighlightForest(ns, path, p, rule) == ns
    decreases ns
  {
    if ns != [] {
      assert NodeCandidates(ns[0], path, p) == [] && Candidates(ns[1..], path, p) == [];
      match ns[0] {
        case Text(v) =>
        case Elem(name, hidden, kids) =>
          NoCandidatesUntouched(kids, path + [Ancestor(name, hidden)], p, rule);
        case Mark(_, _) =>
      }
      NoCandidatesUntouched(ns[1..], path, p, rule);
      HeadTail(ns);
    }
  }

  /** Every candidate the pass splits is split at a real occurrence of its `match[0]`. */
  predicate OffsetsFound(cs: seq<Candidate>, p: Pattern, rule: OffsetRule)
    requires ValidCandidates(cs, p)
  {
    forall i :: 0 <= i < |cs| && !ShouldNotHighlight(cs[i].path) ==> SplitOffset(cs[i].value, p, rule) >= 0
  }

  lemma {:induction false} OffsetsFoundSplit(a: seq<Candidate>, b: seq<Candidate>, p: Pattern, rule: OffsetRule)
    requires ValidCandidates(a, p) && ValidCandidates(b, p)
    requires ValidCandidates(a + b, p) && OffsetsFound(a + b, p, rule)
    ensures OffsetsFound(a, p, rule) && OffsetsFound(b, p, rule)
  {
    forall i | 0 <= i < |b| && !ShouldNotHighlight(b[i].path)
      ensures SplitOffset(b[i].value, p, rule) >= 0
    {
      assert (a + b)[|a| + i] == b[i];
    }
    forall i | 0 <= i < |a| && !ShouldNotHighlight(a[i].path)
      ensures SplitOffset(a[i].value, p, rule) >= 0
    {
      assert (a + b)[i] == a[i];
    }
  }

  /** Un-wrapping a split made at a real occurrence and normalizing gives back the node's text. */
  lemma {:induction false} SplitThenClear(v: string, p: Pattern, rule: OffsetRule, rest: seq<Node>, acc: string)
    requires Match(p, v).Some? && SplitOffset(v, p, rule) >= 0
    ensures NormAcc(Unwrap(Split(v, p, rule)) + rest, acc) == NormAcc(rest, acc + v)
  {
    var s := Split(v, p, rule);
    assert Unwrap(s) == [Text(s[0].value), Text(s[1].text), Text(s[2].value)] by {
      assert s[1..][1..] == [s[2]] && [s[2]][1..] == [];
      assert Unwrap([s[2]]) == [UnwrapNode(s[2])];
      assert Unwrap(s[1..]) == [UnwrapNode(s[1])] + Unwrap([s[2]]);
      assert Unwrap(s) == [UnwrapNode(s[0])] + Unwrap(s[1..]);
    }
    NormAccMergesText(s[0].value, s[1].text, s[2].value, rest, acc);
  }

  /** The parent chain of `<body>`'s children: `<body>` alone. */
  function Root(d: Document): (r: seq<Ancestor>)
    ensures |r| == 1 && r[0].hidden == d.hidden
  {
    [Ancestor("BODY", d.hidden)]
  }

  /** What `highlightMatches` leaves: its return value, the page, and the registry. */
  datatype PassResult = PassResult(found: bool, doc: Document, marks: seq<string>)

  /**
   * `highlightMatches`: collect the candidates of the whole `<body>`; with
   * none, report `false` and change nothing; otherwise split every
   * candidate that is not skipped, append its mark's text to the registry,
   * and report `true` (even when every candidate was skipped).
   */
  function HighlightMatches(d: Document, marks: seq<string>, p: Pattern, rule: OffsetRule): (r: PassResult)
    ensures r.found <==> Candidates(d.kids, Root(d), p) != []
    ensures !r.found ==> r.doc == d && r.marks == marks
    ensures r.doc.hidden == d.hidden
    ensures |marks| <= |r.marks| <= |marks| + |Candidates(d.kids, Root(d), p)|
    ensures r.marks[..|marks|] == marks
    ensures forall k :: |marks| <= k < |r.marks| ==> SameText(p, r.marks[k])
  {
    var cs := Candidates(d.kids, Root(d), p);
    if cs == [] then PassResult(false, d, marks)
    else
      assert Match(p, cs[0].value).Some?;
      RegistryMatchesText(cs, p);
      PassResult(true, Document(d.hidden, HighlightForest(d.kids, Root(d), p, rule)), marks + Registry(cs, p))
  }

  /**
   * Some text node of the forest, outside the engine's marks, holds a
   * match: what the node iterator's filter accepts.
   */
  predicate HasMatchingText(ns: seq<Node>, p: Pattern)
    decreases ns
  {
    exists i :: 0 <= i < |ns| && NodeHasMatchingText(ns[i], p)
  }

  predicate NodeHasMatchingText(n: Node, p: Pattern)
    decreases n
  {
    match n
    case Text(v) => Match(p, v).Some?
    case Elem(_, _, kids) => HasMatchingText(kids, p)
    case Mark(_, _) => false
  }

  /**
   * `highlightMatches` reports `true` exactly when some text node under
   * `<body>`, outside the marks, matches; on a page without marks, exactly
   * when some text node of the `SHOW_TEXT` walk matches.
   */
  lemma {:induction false} FoundIffSomeTextMatches(d: Document, marks: seq<string>, p: Pattern, rule: OffsetRule)
    ensures HighlightMatches(d, marks, p, rule).found <==> HasMatchingText(d.kids, p)
    ensures HighlightMatches(d, marks, p, rule).found ==> AnyMatches(TextNodes(d.kids), p)
    ensures Marks(d.kids) == [] ==> (HighlightMatches(d, marks, p, rule).found <==> AnyMatches(TextNodes(d.kids), p))
  {
    CandidatesIffMatchingText(d.kids, Root(d), p);
    MatchingTextIsTextWalk(d.kids, p);
  }

  lemma {:induction false} CandidatesIffMatchingText(ns: seq<Node>, path: seq<Ancestor>, p: Pattern)
    requires |path| > 0
    ensures Candidates(ns, path, p) != [] <==> HasMatchingText(ns, p)
    decreases ns
  {
    if ns != [] {
      NodeCandidatesIffMatchingText(ns[0], path, p);
      CandidatesIffMatchingText(ns[1..], path, p);
      HasMatchingTextCons(ns, p);
    }
  }

  lemma {:induction false} NodeCandidatesIffMatchingText(n: Node, path: seq<Ancestor>, p: Pattern)
    requires |path| > 0
    ensures NodeCandidates(n, path, p) != [] <==> NodeHasMatchingText(n, p)
    decreases n
  {
    match n
    case Text(_) =>
    case Elem(name, hidden, kids) =>
      CandidatesIffMatchingText(kids, path + [Ancestor(name, hidden)], p);
    case Mark(_, _) =>
  }

  /**
   * The value of every text node of the forest in document order, as a
   * `SHOW_TEXT` walk visits them: the text child of a mark included.
   */
  function TextNodes(ns: seq<Node>): seq<string>
    decreases ns
  {
    if ns == [] then [] else NodeTextNodes(ns[0]) + TextNodes(ns[1..])
  }

  function NodeTextNodes(n: Node): seq<string>
    decreases n
  {
    match n
    case Text(v) => [v]
    case Elem(_, _, kids) => TextNodes(kids)
    case Mark(_, t) => [t]
  }

  /** Some value of `vs` holds a match of `p`. */
  predicate AnyMatches(vs: seq<string>, p: Pattern)
  {
    exists i :: 0 <= i < |vs| && Match(p, vs[i]).Some?
  }

  lemma {:induction false} AnyMatchesConcat(a: seq<string>, b: seq<string>, p: Pattern)
    ensures AnyMatches(a + b, p) <==> AnyMatches(a, p) || AnyMatches(b, p)
  {
    if AnyMatches(a + b, p) {
      var i :| 0 <= i < |a + b| && Match(p, (a + b)[i]).Some?;
      if i >= |a| {
        assert (a + b)[i] == b[i - |a|];
      }
    }
    if AnyMatches(a, p) {
      var i :| 0 <= i < |a| && Match(p, a[i]).Some?;
      assert (a + b)[i] == a[i];
    }
    if AnyMatches(b, p) {
      var i :| 0 <= i < |b| && Match(p, b[i]).Some?;
      assert (a + b)[|a| + i] == b[i];
    }
  }

  lemma {:induction false} HasMatchingTextCons(ns: seq<Node>, p: Pattern)
    requires ns != []
    ensures HasMatchingText(ns, p) <==> NodeHasMatchingText(ns[0], p) || HasMatchingText(ns[1..], p)
  {
    if HasMatchingText(ns, p) && !NodeHasMatchingText(ns[0], p) {
      var i :| 0 <= i < |ns| && NodeHasMatchingText(ns[i], p);
      assert ns[1..][i - 1] == ns[i];
    }
    if HasMatchingText(ns[1..], p) {
      var i :| 0 <= i < |ns[1..]| && NodeHasMatchingText(ns[1..][i], p);
      assert ns[i + 1] == ns[1..][i];
    }
  }

  /**
   * What the filter accepts is a text node of the `SHOW_TEXT` walk; on a
   * page without marks, such as the cleared page search hands the pass,
   * every matching text node of that walk is accepted.
   */
  lemma {:induction false} MatchingTextIsTextWalk(ns: seq<Node>, p: Pattern)
    ensures HasMatchingText(ns, p) ==> AnyMatches(TextNodes(ns), p)
    ensures Marks(ns) == [] ==> (HasMatchingText(ns, p) <==> AnyMatches(TextNodes(ns), p))
    decreases ns
  {
    if ns != [] {
      NodeMatchingTextIsTextWalk(ns[0], p);
      MatchingTextIsTextWalk(ns[1..], p);
      HasMatchingTextCons(ns, p);
      AnyMatchesConcat(NodeTextNodes(ns[0]), TextNodes(ns[1..]), p);
    } else {
      assert !HasMatchingText(ns, p);
      assert !AnyMatches(TextNodes(ns), p);
    }
  }

  lemma {:induction false} NodeMatchingTextIsTextWalk(n: Node, p: Pattern)
    ensures NodeHasMatchingText(n, p) ==> AnyMatches(NodeTextNodes(n), p)
    ensures NodeMarks(n) == [] ==> (NodeHasMatchingText(n, p) <==> AnyMatches(NodeTextNodes(n), p))
    decreases n
  {
    match n
    case Text(v) =>
      assert NodeTextNodes(n)[0] == v;
    case Elem(_, _, kids) =>
      MatchingTextIsTextWalk(kids, p);
    case Mark(_, _) =>
  }

  /** The marks of fresh marks are themselves, so their texts are the registry texts. */
  lemma {:induction false} FreshMarksTexts(ts: seq<string>)
    ensures Marks(FreshMarks(ts)) == FreshMarks(ts)
    ensures MarkTexts(FreshMarks(ts)) == ts
    decreases ts
  {
    if ts != [] {
      assert ts == [ts[0]] + ts[1..];
      FreshMarksConcat([ts[0]], ts[1..]);
      FreshMarksTexts(ts[1..]);
      assert FreshMarks([ts[0]]) == [Mark(false, ts[0])];
      MarksSingleton(Mark(false, ts[0]));
      MarksConcat(FreshMarks([ts[0]]), FreshMarks(ts[1..]));
    }
  }

  /**
   * On a page without marks and with an empty registry (the state clear
   * leaves), the pass leaves the registry in step with the page: the
   * `k`-th mark in document order holds the `k`-th registry text, no mark
   * is current, and there is no other mark.
   */
  lemma {:induction false} HighlightMatchesConsistent(d: Document, p: Pattern, rule: OffsetRule)
    requires Marks(d.kids) == []
    ensures var r := HighlightMatches(d, [], p, rule);
            && MarkTexts(r.doc.kids) == r.marks
            && forall i :: 0 <= i < |Marks(r.doc.kids)| ==> !Marks(r.doc.kids)[i].current
  {
    var r := HighlightMatches(d, [], p, rule);
    var cs := Candidates(d.kids, Root(d), p);
    if cs != [] {
      PassMarksFollowCandidates(d.kids, Root(d), p, rule);
      FreshMarksTexts(Registry(cs, p));
      assert [] + Registry(cs, p) == Registry(cs, p);
    }
  }

  /**
   * The pass over the whole page followed by clear gives back the page
   * normalized, whenever every split found its occurrence.
   */
  lemma {:induction false} HighlightMatchesThenClear(d: Document, marks: seq<string>, p: Pattern, rule: OffsetRule)
    requires OffsetsFound(Candidates(d.kids, Root(d), p), p, rule)
    ensures Normalize(Unwrap(HighlightMatches(d, marks, p, rule).doc.kids)) == Normalize(Unwrap(d.kids))
  {
    HighlightThenClear(d.kids, Root(d), p, rule, []);
  }

  /**
   * Highlight then clear is a round trip: once marks are un-wrapped and
   * the text normalized, the page is what normalizing the original page
   * gives, provided every split was made at a real occurrence of the
   * matched text. `acc` is the pending run of text `normalize()` carries in.
   */
  lemma {:induction false} HighlightThenClear(ns: seq<Node>, path: seq<Ancestor>, p: Pattern, rule: OffsetRule, acc: string)
    requires |path| > 0
    requires OffsetsFound(Candidates(ns, path, p), p, rule)
    ensures NormAcc(Unwrap(HighlightForest(ns, path, p, rule)), acc) == NormAcc(Unwrap(ns), acc)
    decreases ns
  {
    if ns != [] {
      var h := HighlightNode(ns[0], path, p, rule);
      var t := HighlightForest(ns[1..], path, p, rule);
      OffsetsFoundSplit(NodeCandidates(ns[0], path, p), Candidates(ns[1..], path, p), p, rule);
      UnwrapConcat(h, t);
      assert Unwrap(ns) == [UnwrapNode(ns[0])] + Unwrap(ns[1..]);
      match ns[0] {
        case Text(v) =>
          HighlightThenClear(ns[1..], path, p, rule, acc + v);
          TextThenClear(v, path, p, rule, Unwrap(t), Unwrap(ns[1..]), acc);
        case Elem(name, hidden, kids) =>
          var path' := path + [Ancestor(name, hidden)];
          HighlightThenClear(kids, path', p, rule, []);
          HighlightThenClear(ns[1..], path, p, rule, []);
          UnwrapSingleton(h[0]);
          ElemThenClear(name, hidden, Unwrap(HighlightForest(kids, path', p, rule)), Unwrap(kids), Unwrap(t), Unwrap(ns[1..]), acc);
        case Mark(_, s) =>
          HighlightThenClear(ns[1..], path, p, rule, acc + s);
          UnwrapSingleton(ns[0]);
          NormAccText1(s, Unwrap(t), acc);
          NormAccText1(s, Unwrap(ns[1..]), acc);
      }
    }
  }

  /** The round-trip step for a text node, given the round trip for what follows it. */
  lemma {:induction false} TextThenClear(v: string, path: seq<Ancestor>, p: Pattern, rule: OffsetRule,
                                         hrest: seq<Node>, rest: seq<Node>, acc: string)
    requires |path| > 0
    requires OffsetsFound(NodeCandidates(Text(v), path, p), p, rule)
    requires NormAcc(hrest, acc + v) == NormAcc(rest, acc + v)
    ensures NormAcc(Unwrap(HighlightNode(Text(v), path, p, rule)) + hrest, acc) == NormAcc([Text(v)] + rest, acc)
  {
    NormAccText1(v, rest, acc);
    if Match(p, v).Some? && !ShouldNotHighlight(path) {
      var c0 := NodeCandidates(Text(v), path, p);
      assert c0 == [Candidate(v, path)];
      assert c0[0].value == v && c0[0].path == path && !ShouldNotHighlight(c0[0].path);
      SplitThenClear(v, p, rule, hrest, acc);
    } else {
      UnwrapSingleton(Text(v));
      NormAccText1(v, hrest, acc);
    }
  }

  /** The round-trip step for an element, given the round trips for its children and for what follows it. */
  lemma {:induction false} ElemThenClear(name: string, hidden: bool, hkids: seq<Node>, kids: seq<Node>,
                                         hrest: seq<Node>, rest: seq<Node>, acc: string)
    requires NormAcc(hkids, []) == NormAcc(kids, [])
    requires NormAcc(hrest, []) == NormAcc(rest, [])
    ensures NormAcc([Elem(name, hidden, hkids)] + hrest, acc) == NormAcc([Elem(name, hidden, kids)] + rest, acc)
  {
    NormAccElem(name, hidden, hkids, hrest, acc);
    NormAccElem(name, hidden, kids, rest, acc);
  }

  /**
   * Splitting where the regular expression matched always finds its
   * occurrence: the text survives the split, and the mark sits on a match
   * of the pattern.
   */
  lemma {:induction false} CorrectedSplitIsMatch(v: string, p: Pattern)
    requires Match(p, v).Some?
    ensures var s := Split(v, p, MatchPosition);
            && s[0].value + s[1].text + s[2].value == v
            && MatchesAt(p, v, |s[0].value|)
            && s[1].text == v[|s[0].value|..|s[0].value| + |p.text|]
  {
  }

  lemma {:induction false} MatchPositionOffsetsFound(cs: seq<Candidate>, p: Pattern)
    requires ValidCandidates(cs, p)
    ensures OffsetsFound(cs, p, MatchPosition)
  {
  }

  /** With the corrected split, highlight then clear is a round trip on every page. */
  lemma {:induction false} HighlightThenClearCorrected(ns: seq<Node>, path: seq<Ancestor>, p: Pattern, acc: string)
    requires |path| > 0
    ensures NormAcc(Unwrap(HighlightForest(ns, path, p, MatchPosition)), acc) == NormAcc(Unwrap(ns), acc)
  {
    MatchPositionOffsetsFound(Candidates(ns, path, p), p);
    HighlightThenClear(ns, path, p, MatchPosition, acc);
  }

  /**
   * Without whole words the pattern has no `g` flag, `match` holds the one
   * matched string, and the first literal occurrence of that string is
   * the match itself: an earlier occurrence would be an earlier match.
   */
  lemma {:induction false} SubstringOffsetIsMatchPosition(text: string, matchCase: bool, v: string)
    requires Match(GetRegex(text, SearchOptions(matchCase, false)), v).Some?
    ensures var p := GetRegex(text, SearchOptions(matchCase, false));
            SplitOffset(v, p, IndexOfJoined) == SplitOffset(v, p, MatchPosition)
  {
    var p := GetRegex(text, SearchOptions(matchCase, false));
    FirstOccurrenceIsMatch(p, v);
  }

  /** Without word boundaries, the first occurrence of the leftmost match's characters is that match. */
  lemma {:induction false} FirstOccurrenceIsMatch(p: Pattern, v: string)
    requires !p.wholeWord && FirstMatch(p, v).Some?
    ensures IndexOf(v, MatchedAt(p, v, FirstMatch(p, v).value)) == FirstMatch(p, v).value
  {
    var i := FirstMatch(p, v).value;
    var m0 := MatchedAt(p, v, i);
    var q := IndexOf(v, m0);
    assert q != -1 && q <= i by {
      assert OccursAt(v, m0, i);
      IndexOfIsFirst(v, m0);
    }
    assert MatchesAt(p, v, q) by {
      SameSliceMatches(p, v, i, q);
    }
    ScanIsLeftmost(p, v, 0);
  }

  /** Without word boundaries, wherever the matched characters occur again the pattern matches too. */
  lemma {:induction false} SameSliceMatches(p: Pattern, v: string, i: nat, q: int)
    requires !p.wholeWord && MatchesAt(p, v, i)
    requires OccursAt(v, v[i..i + |p.text|], q)
    ensures MatchesAt(p, v, q)
  {
  }

  /** In substring mode the page script's split is always at a real occurrence. */
  lemma {:induction false} SubstringOffsetsFound(cs: seq<Candidate>, text: string, matchCase: bool)
    requires ValidCandidates(cs, GetRegex(text, SearchOptions(matchCase, false)))
    ensures OffsetsFound(cs, GetRegex(text, SearchOptions(matchCase, false)), IndexOfJoined)
  {
    forall i | 0 <= i < |cs|
      ensures SplitOffset(cs[i].value, GetRegex(text, SearchOptions(matchCase, false)), IndexOfJoined) >= 0
    {
      SubstringOffsetIsMatchPosition(text, matchCase, cs[i].value);
    }
  }

  /**
   * With a single whole-word match in the node, `indexOf` finds that word's
   * text, at the match or at an earlier occurrence of the same characters.
   */
  lemma {:induction false} SingleMatchOffsetFound(v: string, p: Pattern)
    requires Match(p, v).Some? && |Match(p, v).value| == 1
    ensures 0 <= SplitOffset(v, p, IndexOfJoined) <= SplitOffset(v, p, MatchPosition)
  {
    var i := FirstMatch(p, v).value;
    assert OccursAt(v, Match(p, v).value[0], i);
    IndexOfIsFirst(v, Match(p, v).value[0]);
  }

  /**
   * When `indexOf` finds nothing the split is at -1: the text before is
   * empty and the text after starts one character short of `match[0]`'s
   * length, so the node's text grows by exactly one character.
   */
  lemma {:induction false} LostOffsetGrowsText(v: string, p: Pattern)
    requires Match(p, v).Some? && |p.text| > 0
    requires SplitOffset(v, p, IndexOfJoined) == -1
    ensures var s := Split(v, p, IndexOfJoined);
            && s[0].value == []
            && s[2].value == v[|s[1].text| - 1..]
            && |s[0].value + s[1].text + s[2].value| == |v| + 1
  {
    var i := FirstMatch(p, v).value;
    assert |Match(p, v).value[0]| == |p.text|;
  }

  /**
   * Highlighting then clearing a text whose split offset was lost: the
   * text comes back as `match[0]` followed by the text from one character
   * before `match[0]`'s length on, one character longer than before.
   */
  lemma {:induction false} LostOffsetCorruptsText(v: string, p: Pattern, path: seq<Ancestor>)
    requires |path| > 0 && !ShouldNotHighlight(path)
    requires Match(p, v).Some? && |p.text| > 0
    requires SplitOffset(v, p, IndexOfJoined) == -1
    ensures var m0 := Match(p, v).value[0];
            && 1 <= |m0| <= |v|
            && Normalize(Unwrap(HighlightForest([Text(v)], path, p, IndexOfJoined))) == [Text(m0 + v[|m0| - 1..])]
  {
    var m0 := Match(p, v).value[0];
    assert |m0| == |p.text|;
    LostOffsetGrowsText(v, p);
    var s := Split(v, p, IndexOfJoined);
    SingleTextPass(v, path, p, IndexOfJoined);
    UnwrapSplit(s[0].value, s[1].current, s[1].text, s[2].value);
    NormalizeThreeTexts(s[0].value, s[1].text, s[2].value);
    EmptyConcat(s[1].text);
  }

  /** The pass over a lone text node that matches and is not skipped is its split. */
  lemma {:induction false} SingleTextPass(v: string, path: seq<Ancestor>, p: Pattern, rule: OffsetRule)
    requires |path| > 0 && !ShouldNotHighlight(path) && Match(p, v).Some?
    ensures HighlightForest([Text(v)], path, p, rule) == Split(v, p, rule)
  {
    assert [Text(v)][1..] == [];
    assert Split(v, p, rule) + [] == Split(v, p, rule);
  }

  /** Un-wrapping the three nodes of a split leaves three text nodes. */
  lemma {:induction false} UnwrapSplit(a: string, current: bool, b: string, c: string)
    ensures Unwrap([Text(a), Mark(current, b), Text(c)]) == [Text(a), Text(b), Text(c)]
  {
    var s := [Text(a), Mark(current, b), Text(c)];
    var t := [Mark(current, b), Text(c)];
    assert Unwrap([Text(c)]) == [Text(c)] by {
      assert [Text(c)][1..] == [];
    }
    assert t[1..] == [Text(c)];
    assert Unwrap(t) == [Text(b)] + Unwrap([Text(c)]);
    assert s[1..] == t;
    assert Unwrap(s) == [Text(a)] + Unwrap(t);
  }

  /** Three adjacent text nodes normalize to the one text node of their joined text. */
  lemma {:induction false} NormalizeThreeTexts(a: string, b: string, c: string)
    requires a + b + c != []
    ensures Normalize([Text(a), Text(b), Text(c)]) == [Text(a + b + c)]
  {
    NormAccMergesText(a, b, c, [], []);
    assert [Text(a), Text(b), Text(c)] + [] == [Text(a), Text(b), Text(c)];
    assert [] + (a + b + c) == a + b + c;
  }

  /**
   * Two or more matches in a text without a comma: their comma-joined
   * string cannot occur in it, so `indexOf` yields -1.
   */
  lemma {:induction false} SeveralMatchesLoseOffset(v: string, p: Pattern)
    requires Match(p, v).Some? && |Match(p, v).value| >= 2
    requires forall k :: 0 <= k < |v| ==> v[k] != ','
    ensures SplitOffset(v, p, IndexOfJoined) == -1
  {
  }

  /** "cat" as whole words with case matches "cat cat" twice. */
  lemma {:induction false} RepeatedWholeWordMatches(v: string, p: Pattern)
    requires v == "cat cat" && p == GetRegex("cat", SearchOptions(true, true))
    ensures Match(p, v) == Some(["cat", "cat"])
  {
    RepeatedWordChars(v, p);
  }

  lemma {:induction false} RepeatedWordChars(v: string, p: Pattern)
    requires p == Pattern("cat", true, false, true)
    requires |v| == 7 && v[0] == 'c' && v[1] == 'a' && v[2] == 't' && v[3] == ' '
    requires v[4] == 'c' && v[5] == 'a' && v[6] == 't'
    ensures Match(p, v) == Some(["cat", "cat"])
    ensures forall k :: 0 <= k < |v| ==> v[k] != ','
  {
    assert v[0..3] == "cat" && IsBoundary(v, 3);
    assert v[4..7] == "cat" && IsBoundary(v, 4);
    NoMatchAtFirstChar(p, v, 3);
    MatchesAtZeroAndFour(p, v);
  }

  /**
   * Whenever a comma-free text node holds two or more matches, which only
   * the whole-word (global) pattern yields, highlighting then clearing does
   * not give the text back: it comes back one character longer.
   */
  lemma {:induction false} SeveralMatchesCorruptText(v: string, p: Pattern, path: seq<Ancestor>)
    requires |path| > 0 && !ShouldNotHighlight(path)
    requires Match(p, v).Some? && |Match(p, v).value| >= 2 && |p.text| > 0
    requires forall k :: 0 <= k < |v| ==> v[k] != ','
    ensures var m0 := Match(p, v).value[0];
            && 1 <= |m0| <= |v|
            && Normalize(Unwrap(HighlightForest([Text(v)], path, p, IndexOfJoined))) == [Text(m0 + v[|m0| - 1..])]
            && |m0 + v[|m0| - 1..]| == |v| + 1
  {
    SeveralMatchesLoseOffset(v, p);
    LostOffsetCorruptsText(v, p, path);
  }

  /**
   * Searching "cat" as whole words with case in "cat cat": the two
   * matches join to "cat,cat", which the text does not contain, so the
   * split is at -1.
   */
  lemma {:induction false} RepeatedWholeWordLosesOffset(v: string, p: Pattern)
    requires v == "cat cat" && p == GetRegex("cat", SearchOptions(true, true))
    ensures Match(p, v) == Some(["cat", "cat"])
    ensures SplitOffset(v, p, IndexOfJoined) == -1
  {
    RepeatedWordChars(v, p);
    SeveralMatchesLoseOffset(v, p);
  }

  /**
   * The node then becomes "", a mark holding "cat", and "t cat", which
   * clearing joins into "catt cat" (`SeveralMatchesCorruptText`).
   */
  lemma {:induction false} RepeatedWholeWordSplit(v: string, p: Pattern)
    requires v == "cat cat" && p == GetRegex("cat", SearchOptions(true, true))
    ensures Split(v, p, IndexOfJoined) == [Text(""), Mark(false, "cat"), Text("t cat")]
  {
    RepeatedWholeWordLosesOffset(v, p);
    LostOffsetGrowsText(v, p);
    assert v[2..] == "t cat";
  }

  /**
   * Searching "cat" as whole words with case in "scat cat": the only match
   * is the word at 5, but `indexOf("cat")` finds the letters inside "scat"
   * at 1, where the pattern does not match, and the mark is placed there.
   */
  lemma {:induction false} EmbeddedWordMisplacesMark(p: Pattern, v: string)
    requires p == GetRegex("cat", SearchOptions(true, true)) && v == "scat cat"
    ensures Match(p, v) == Some(["cat"])
    ensures SplitOffset(v, p, MatchPosition) == 5
    ensures SplitOffset(v, p, IndexOfJoined) == 1
    ensures !MatchesAt(p, v, 1)
  {
    EmbeddedWordChars(p, v);
  }

  lemma {:induction false} EmbeddedWordChars(p: Pattern, v: string)
    requires p == Pattern("cat", true, false, true)
    requires |v| == 8 && v[0] == 's' && v[1] == 'c' && v[2] == 'a' && v[3] == 't'
    requires v[4] == ' ' && v[5] == 'c' && v[6] == 'a' && v[7] == 't'
    ensures Match(p, v) == Some(["cat"])
    ensures SplitOffset(v, p, MatchPosition) == 5
    ensures SplitOffset(v, p, IndexOfJoined) == 1
    ensures !MatchesAt(p, v, 1)
  {
    WholeWordChars(p, v);
    assert JoinComma(["cat"]) == "cat";
    assert v[0..3] != "cat" by {
      assert v[0..3][0] == 's';
    }
    assert v[1..4] == "cat";
    assert IndexOfFrom(v, "cat", 1) == 1;
    assert IndexOf(v, "cat") == 1;
    NoMatchInsideWord(p, v, 1);
  }
}

=== FILE: matcher.dfy ===
/**
 * The pattern chosen by `getRegex` and what it matches.
 *
 * The search text is taken literally: each of its characters matches
 * itself (or, with the `i` flag, itself up to ASCII case). Whole-word
 * patterns are `(?:^|\b)(text)(?=\b|$)` with the `g` flag; substring
 * patterns are `text` with no `g` flag. Without the `u` flag `\b` looks at
 * the ASCII word characters `[A-Za-z0-9_]`, whatever the `i` flag says
 * (ECMA-262, section 22.2.2, IsWordChar and Canonicalize).
 */
module Matcher {
  import opened Wrappers

  /** The two check-boxes of the popup. */
  datatype SearchOptions = SearchOptions(matchCase: bool, wholeWords: bool)

  /** A regular expression built from literal text and its flags. */
  datatype Pattern = Pattern(text: string, wholeWord: bool, ignoreCase: bool, global: bool)

  /** `getRegex`: one of the four pattern variants, picked by the two options. */
  function GetRegex(text: string, opts: SearchOptions): (p: Pattern)
    ensures p.text == text
    ensures p.wholeWord <==> opts.wholeWords
    ensures p.global <==> opts.wholeWords
    ensures p.ignoreCase <==> !opts.matchCase
  {
    if opts.wholeWords && opts.matchCase then Pattern(text, true, false, true)
    else if opts.wholeWords then Pattern(text, true, true, true)
    else if opts.matchCase then Pattern(text, false, false, false)
    else Pattern(text, false, true, false)
  }

  /** A character of `\w` without the `u` flag: `[A-Za-z0-9_]`. */
  predicate IsWordChar(c: char)
  {
    ('a' <= c <= 'z') || ('A' <= c <= 'Z') || ('0' <= c <= '9') || c == '_'
  }

  /** Position `i` of `s` holds a word character; positions outside `s` do not. */
  predicate WordAt(s: string, i: int)
  {
    0 <= i < |s| && IsWordChar(s[i])
  }

  /** `\b` at position `i`: exactly one of the characters around it is a word character. */
  predicate IsBoundary(s: string, i: int)
  {
    WordAt(s, i - 1) != WordAt(s, i)
  }

  /** `(?:^|\b)` at position `i` (no `m` flag, so `^` is the start of the input only). */
  predicate StartOk(s: string, i: int)
  {
    i == 0 || IsBoundary(s, i)
  }

  /** `(?=\b|$)` at position `e`. */
  predicate EndOk(s: string, e: int)
  {
    IsBoundary(s, e) || e == |s|
  }

  /** ASCII case folding of one character, as the `i` flag compares characters. */
  function Canonicalize(c: char): (r: char)
    ensures IsWordChar(r) <==> IsWordChar(c)
    ensures !('a' <= r <= 'z')
    ensures 'A' <= c <= 'Z' ==> r == c
  {
    if 'a' <= c <= 'z' then (c as int - 32) as char else c
  }

  /** Case folding of a whole string, character by character. */
  function Fold(s: string): (r: string)
    ensures |r| == |s|
    ensures forall i :: 0 <= i < |s| ==> r[i] == Canonicalize(s[i])
  {
    seq(|s|, i requires 0 <= i < |s| => Canonicalize(s[i]))
  }

  /** The candidate text `t` equals the search text, up to case when the `i` flag is set. */
  predicate SameText(p: Pattern, t: string)
  {
    if p.ignoreCase then Fold(t) == Fold(p.text) else t == p.text
  }

  /** The pattern matches `s` at offset `i`. */
  predicate MatchesAt(p: Pattern, s: string, i: int)
  {
    && 0 <= i
    && i + |p.text| <= |s|
    && SameText(p, s[i..i + |p.text|])
    && (p.wholeWord ==> StartOk(s, i) && EndOk(s, i + |p.text|))
  }

  /** The leftmost match at or after `from`, as a regular-expression scan from `from` finds it. */
  function FirstMatchFrom(p: Pattern, s: string, from: nat): (r: Option<nat>)
    decreases |s| - from
    ensures r.Some? ==> from <= r.value && MatchesAt(p, s, r.value)
  {
    if from + |p.text| > |s| then None
    else if MatchesAt(p, s, from) then Some(from)
    else FirstMatchFrom(p, s, from + 1)
  }

  /** The scan finds the leftmost match: nothing matches between `from` and what it returns. */
  lemma {:induction false} ScanIsLeftmost(p: Pattern, s: string, from: nat)
    decreases |s| - from
    ensures FirstMatchFrom(p, s, from).Some? ==>
              forall j {:trigger MatchesAt(p, s, j)} :: from <= j < FirstMatchFrom(p, s, from).value ==> !MatchesAt(p, s, j)
    ensures FirstMatchFrom(p, s, from).None? ==>
              forall j {:trigger MatchesAt(p, s, j)} :: from <= j ==> !MatchesAt(p, s, j)
  {
    if from + |p.text| <= |s| && !MatchesAt(p, s, from) {
      ScanIsLeftmost(p, s, from + 1);
    }
  }

  /** The offset of the leftmost match in `s` (the regular expression's `index`), if any. */
  function FirstMatch(p: Pattern, s: string): Option<nat>
  {
    FirstMatchFrom(p, s, 0)
  }

  /** The matched substring at offset `i`. */
  function MatchedAt(p: Pattern, s: string, i: nat): string
    requires i + |p.text| <= |s|
  {
    s[i..i + |p.text|]
  }

  /** How far the scan moves on past a match: its length, or one character after an empty match. */
  function Advance(p: Pattern): (r: nat)
    ensures r >= 1
  {
    if |p.text| == 0 then 1 else |p.text|
  }

  /**
   * The list a `g`-flag `String.prototype.match` returns from offset `from`:
   * every match, scanning on from the end of the previous one (one
   * character on after an empty match).
   */
  function AllMatchesFrom(p: Pattern, s: string, from: nat): (r: seq<string>)
    requires from <= |s| + 1
    decreases |s| + 1 - from
    ensures r == [] <==> FirstMatchFrom(p, s, from).None?
    ensures r != [] ==> r[0] == MatchedAt(p, s, FirstMatchFrom(p, s, from).value)
    ensures forall k :: 0 <= k < |r| ==> SameText(p, r[k])
  {
    var f := FirstMatchFrom(p, s, from);
    if f.None? then []
    else [MatchedAt(p, s, f.value)] + AllMatchesFrom(p, s, f.value + Advance(p))
  }

  /**
   * `s.match(regex)`: `None` stands for `null`. With the `g` flag the
   * result lists every match; without it, it holds the first match alone
   * (the literal text has no capturing group).
   */
  function Match(p: Pattern, s: string): (r: Option<seq<string>>)
    ensures r.Some? <==> FirstMatch(p, s).Some?
    ensures r.Some? ==> |r.value| >= 1
    ensures r.Some? ==> r.value[0] == MatchedAt(p, s, FirstMatch(p, s).value)
    ensures r.Some? && !p.global ==> |r.value| == 1
  {
    if p.global then
      var all := AllMatchesFrom(p, s, 0);
      if all == [] then None else Some(all)
    else
      match FirstMatch(p, s)
      case None => None
      case Some(i) => Some([MatchedAt(p, s, i)])
  }

  /** `match` gives `null` exactly when the pattern matches at no offset of the string. */
  lemma {:induction false} MatchNullIffNoMatch(p: Pattern, s: string)
    ensures Match(p, s).None? <==> forall i {:trigger MatchesAt(p, s, i)} :: !MatchesAt(p, s, i)
  {
    ScanIsLeftmost(p, s, 0);
  }

  /**
   * The offset of the `k`-th match of a scan that starts at `from` and, after
   * each match, goes on from its end (one character on after an empty
   * match): the `lastIndex` a `g`-flag scan has reached before the
   * `k`-th match.
   */
  function NthMatch(p: Pattern, s: string, from: nat, k: nat): (r: Option<nat>)
    decreases k
    ensures r.Some? ==> from <= r.value && MatchesAt(p, s, r.value)
  {
    match FirstMatchFrom(p, s, from)
    case None => None
    case Some(i) => if k == 0 then Some(i) else NthMatch(p, s, i + Advance(p), k - 1)
  }

  /**
   * The `g`-flag list holds the successive matches in order: its `k`-th
   * entry is the text of the `k`-th match, and the scan finds no further
   * match after its last entry.
   */
  lemma {:induction false} AllMatchesAreSuccessive(p: Pattern, s: string, from: nat)
    requires from <= |s| + 1
    decreases |s| + 1 - from
    ensures forall k :: 0 <= k < |AllMatchesFrom(p, s, from)| ==>
              && NthMatch(p, s, from, k).Some?
              && AllMatchesFrom(p, s, from)[k] == MatchedAt(p, s, NthMatch(p, s, from, k).value)
    ensures NthMatch(p, s, from, |AllMatchesFrom(p, s, from)|).None?
  {
    var r := AllMatchesFrom(p, s, from);
    match FirstMatchFrom(p, s, from)
    case None =>
    case Some(i) =>
      var next := i + Advance(p);
      var rest := AllMatchesFrom(p, s, next);
      assert r == [MatchedAt(p, s, i)] + rest;
      AllMatchesAreSuccessive(p, s, next);
      forall k | 0 <= k < |r|
        ensures NthMatch(p, s, from, k).Some? && r[k] == MatchedAt(p, s, NthMatch(p, s, from, k).value)
      {
        if k > 0 {
          assert r[k] == rest[k - 1];
          assert NthMatch(p, s, from, k) == NthMatch(p, s, next, k - 1);
        }
      }
      assert NthMatch(p, s, from, |r|) == NthMatch(p, s, next, |rest|);
  }

  /**
   * With the `g` flag, `match` lists the text of every successive match
   * of the scan from the start of the string, in order, and no more.
   */
  lemma {:induction false} MatchListsSuccessiveMatches(p: Pattern, s: string)
    requires p.global
    ensures Match(p, s).None? <==> NthMatch(p, s, 0, 0).None?
    ensures Match(p, s).Some? ==>
              && (forall k :: 0 <= k < |Match(p, s).value| ==>
                    && NthMatch(p, s, 0, k).Some?
                    && Match(p, s).value[k] == MatchedAt(p, s, NthMatch(p, s, 0, k).value))
              && NthMatch(p, s, 0, |Match(p, s).value|).None?
  {
    AllMatchesAreSuccessive(p, s, 0);
  }

  /**
   * With the `g` flag, `match` lists two or more entries exactly when the
   * scan finds a second match after the end of the first.
   */
  lemma {:induction false} SeveralMatchesIff(p: Pattern, s: string)
    requires p.global && Match(p, s).Some?
    ensures FirstMatch(p, s).value + Advance(p) <= |s| + 1
    ensures |Match(p, s).value| >= 2 <==> FirstMatchFrom(p, s, FirstMatch(p, s).value + Advance(p)).Some?
  {
    MatchListsSuccessiveMatches(p, s);
    var i := FirstMatch(p, s).value;
    assert MatchesAt(p, s, i);
    assert NthMatch(p, s, 0, 1) == FirstMatchFrom(p, s, i + Advance(p));
  }

  /**
   * Under the `i` flag, case never decides a match: the pattern matches a
   * string at exactly the offsets where it matches the string's case-folded
   * copy, word boundaries included.
   */
  lemma {:induction false} IgnoreCaseBlindToCase(p: Pattern, s: string, i: int)
    requires p.ignoreCase
    ensures MatchesAt(p, Fold(s), i) <==> MatchesAt(p, s, i)
  {
  }

  /** A case-sensitive match is also a case-insensitive match at the same offset. */
  lemma {:induction false} MatchCaseNarrows(text: string, wholeWords: bool, s: string, i: int)
    ensures MatchesAt(GetRegex(text, SearchOptions(true, wholeWords)), s, i)
            ==> MatchesAt(GetRegex(text, SearchOptions(false, wholeWords)), s, i)
  {
  }

  /** A whole-word match is also a substring match at the same offset, under the same case rule. */
  lemma {:induction false} WholeWordsNarrows(text: string, matchCase: bool, s: string, i: int)
    ensures MatchesAt(GetRegex(text, SearchOptions(matchCase, true)), s, i)
            ==> MatchesAt(GetRegex(text, SearchOptions(matchCase, false)), s, i)
  {
  }

  /** One step of the scan: a match at `from` is the leftmost one from there, otherwise look further on. */
  lemma {:induction false} ScanStep(p: Pattern, s: string, from: nat)
    requires from + |p.text| <= |s|
    ensures FirstMatchFrom(p, s, from) == if MatchesAt(p, s, from) then Some(from) else FirstMatchFrom(p, s, from + 1)
  {
  }

  /** The scan finds nothing once the pattern no longer fits. */
  lemma {:induction false} ScanEnd(p: Pattern, s: string, from: nat)
    requires from + |p.text| > |s|
    ensures FirstMatchFrom(p, s, from) == None
  {
  }

  /** The `g`-flag list from `from`: the leftmost match, then the rest from its end. */
  lemma {:induction false} AllMatchesStep(p: Pattern, s: string, from: nat, i: nat)
    requires from <= |s| + 1 && |p.text| > 0
    requires FirstMatchFrom(p, s, from) == Some(i)
    ensures i + |p.text| <= |s|
    ensures AllMatchesFrom(p, s, from) == [MatchedAt(p, s, i)] + AllMatchesFrom(p, s, i + |p.text|)
  {
  }

  lemma {:induction false} AllMatchesEnd(p: Pattern, s: string, from: nat)
    requires from <= |s| + 1 && FirstMatchFrom(p, s, from) == None
    ensures AllMatchesFrom(p, s, from) == []
  {
  }

  /** A global pattern's `match` is the list of every match, or `null` when that list is empty. */
  lemma {:induction false} MatchGlobal(p: Pattern, s: string)
    requires p.global
    ensures Match(p, s) == if AllMatchesFrom(p, s, 0) == [] then None else Some(AllMatchesFrom(p, s, 0))
  {
  }

  /** Where the first character already differs, up to case, the pattern does not match. */
  lemma {:induction false} NoMatchAtFirstChar(p: Pattern, s: string, i: int)
    requires 0 <= i && i + |p.text| <= |s| && |p.text| > 0
    requires Canonicalize(s[i]) != Canonicalize(p.text[0])
    ensures !MatchesAt(p, s, i)
  {
    var t := s[i..i + |p.text|];
    assert t[0] == s[i];
    if p.ignoreCase {
      assert Fold(t)[0] != Fold(p.text)[0];
    }
  }

  /** A whole-word pattern cannot start in the middle of a word. */
  lemma {:induction false} NoMatchInsideWord(p: Pattern, s: string, i: int)
    requires p.wholeWord && 0 < i < |s| && IsWordChar(s[i - 1]) && IsWordChar(s[i])
    ensures !MatchesAt(p, s, i)
  {
    assert !IsBoundary(s, i);
  }

  /**
   * The scan of a global three-character pattern over a seven-character
   * string that matches at 0 and 4 and not at 3.
   */
  lemma {:induction false} MatchesAtZeroAndFour(p: Pattern, s: string)
    requires p.global && |p.text| == 3 && |s| == 7
    requires MatchesAt(p, s, 0) && !MatchesAt(p, s, 3) && MatchesAt(p, s, 4)
    ensures Match(p, s) == Some([MatchedAt(p, s, 0), MatchedAt(p, s, 4)])
  {
    ScanStep(p, s, 0);
    AllMatchesStep(p, s, 0, 0);
    ScanStep(p, s, 3);
    ScanStep(p, s, 4);
    AllMatchesStep(p, s, 3, 4);
    ScanEnd(p, s, 7);
    AllMatchesEnd(p, s, 7);
    assert [MatchedAt(p, s, 0)] + ([MatchedAt(p, s, 4)] + []) == [MatchedAt(p, s, 0), MatchedAt(p, s, 4)];
    MatchGlobal(p, s);
  }

  /**
   * Whole-word "cat" in "scat cat" matches only the free-standing word, at
   * offset 5, not the letters at the end of "scat".
   */
  lemma {:induction false} WholeWordExample(p: Pattern, s: string)
    requires p == GetRegex("cat", SearchOptions(true, true)) && s == "scat cat"
    ensures FirstMatch(p, s) == Some(5)
    ensures Match(p, s) == Some(["cat"])
  {
    WholeWordChars(p, s);
  }

  lemma {:induction false} WholeWordChars(p: Pattern, s: string)
    requires p == Pattern("cat", true, false, true)
    requires |s| == 8 && s[0] == 's' && s[1] == 'c' && s[2] == 'a' && s[3] == 't'
    requires s[4] == ' ' && s[5] == 'c' && s[6] == 'a' && s[7] == 't'
    ensures FirstMatch(p, s) == Some(5)
    ensures Match(p, s) == Some(["cat"])
  {
    NoMatchAtFirstChar(p, s, 0);
    NoMatchInsideWord(p, s, 1);
    NoMatchAtFirstChar(p, s, 2);
    NoMatchAtFirstChar(p, s, 3);
    NoMatchAtFirstChar(p, s, 4);
    WholeWordAt5(p, s);
    ScanStep(p, s, 0);
    ScanStep(p, s, 1);
    ScanStep(p, s, 2);
    ScanStep(p, s, 3);
    ScanStep(p, s, 4);
    ScanStep(p, s, 5);
    AllMatchesStep(p, s, 0, 5);
    ScanEnd(p, s, 8);
    AllMatchesEnd(p, s, 8);
    assert [MatchedAt(p, s, 5)] + [] == ["cat"];
    MatchGlobal(p, s);
  }

  lemma {:induction false} WholeWordAt5(p: Pattern, s: string)
    requires p == Pattern("cat", true, false, true)
    requires |s| == 8 && s[4] == ' ' && s[5] == 'c' && s[6] == 'a' && s[7] == 't'
    ensures MatchesAt(p, s, 5) && MatchedAt(p, s, 5) == "cat"
  {
    assert s[5..8] == "cat";
    assert IsBoundary(s, 5);
  }

  /** "Cat" against "cat Cat" as whole words with case: only the capitalised word. */
  lemma {:induction false} MatchCaseExample(p: Pattern, s: string)
    requires p == GetRegex("Cat", SearchOptions(true, true)) && s == "cat Cat"
    ensures Match(p, s) == Some(["Cat"])
  {
    MatchCaseChars(p, s);
  }

  lemma {:induction false} MatchCaseChars(p: Pattern, s: string)
    requires p == Pattern("Cat", true, false, true)
    requires |s| == 7 && s[0] == 'c' && s[1] == 'a' && s[2] == 't' && s[3] == ' '
    requires s[4] == 'C' && s[5] == 'a' && s[6] == 't'
    ensures Match(p, s) == Some(["Cat"])
  {
    assert !MatchesAt(p, s, 0) by {
      assert s[0..3][0] != p.text[0];
    }
    NoMatchAtFirstChar(p, s, 1);
    NoMatchAtFirstChar(p, s, 2);
    NoMatchAtFirstChar(p, s, 3);
    CapitalisedAt4(p, s);
    ScanStep(p, s, 0);
    ScanStep(p, s, 1);
    ScanStep(p, s, 2);
    ScanStep(p, s, 3);
    ScanStep(p, s, 4);
    AllMatchesStep(p, s, 0, 4);
    ScanEnd(p, s, 7);
    AllMatchesEnd(p, s, 7);
    assert [MatchedAt(p, s, 4)] + [] == ["Cat"];
    MatchGlobal(p, s);
  }

  lemma {:induction false} CapitalisedAt4(p: Pattern, s: string)
    requires p.text == "Cat" && p.wholeWord
    requires |s| == 7 && s[3] == ' ' && s[4] == 'C' && s[5] == 'a' && s[6] == 't'
    ensures s[4..7] == "Cat" && IsBoundary(s, 4)
    ensures !p.ignoreCase ==> MatchesAt(p, s, 4) && MatchedAt(p, s, 4) == "Cat"
  {
    assert s[4..7] == "Cat";
  }

  /** "Cat" against "cat Cat" as whole words without case: both words. */
  lemma {:induction false} IgnoreCaseExample(p: Pattern, s: string)
    requires p == GetRegex("Cat", SearchOptions(false, true)) && s == "cat Cat"
    ensures Match(p, s) == Some(["cat", "Cat"])
  {
    IgnoreCaseChars(p, s);
  }

  lemma {:induction false} IgnoreCaseChars(p: Pattern, s: string)
    requires p == Pattern("Cat", true, true, true)
    requires |s| == 7 && s[0] == 'c' && s[1] == 'a' && s[2] == 't' && s[3] == ' '
    requires s[4] == 'C' && s[5] == 'a' && s[6] == 't'
    ensures Match(p, s) == Some(["cat", "Cat"])
  {
    IgnoreCaseAt0(p, s);
    NoMatchAtFirstChar(p, s, 3);
    IgnoreCaseAt4(p, s);
    MatchesAtZeroAndFour(p, s);
  }

  lemma {:induction false} IgnoreCaseAt0(p: Pattern, s: string)
    requires p == Pattern("Cat", true, true, true)
    requires |s| == 7 && s[0] == 'c' && s[1] == 'a' && s[2] == 't' && s[3] == ' '
    ensures MatchesAt(p, s, 0) && MatchedAt(p, s, 0) == "cat"
  {
    assert Fold(p.text) == "CAT";
    assert s[0..3] == "cat";
    assert Fold(s[0..3]) == "CAT";
    assert IsBoundary(s, 3);
  }

  lemma {:induction false} IgnoreCaseAt4(p: Pattern, s: string)
    requires p == Pattern("Cat", true, true, true)
    requires |s| == 7 && s[3] == ' ' && s[4] == 'C' && s[5] == 'a' && s[6] == 't'
    ensures MatchesAt(p, s, 4) && MatchedAt(p, s, 4) == "Cat"
  {
    assert Fold(p.text) == "CAT";
    CapitalisedAt4(p, s);
    assert Fold(s[4..7]) == "CAT";
  }
}

=== FILE: navigation.dfy ===
/**
 * Index arithmetic over the registry of marks: `getNextMatch` and
 * `getPreviousMatch` step the current index forward or back, wrapping
 * round at either end.
 */
module Navigation {

  /** `getNextMatch`: one past `current`, back to 0 after the last of `count` marks. */
  function GetNextMatch(current: nat, count: nat): (r: nat)
    requires current < count
    ensures r < count
    ensures r == (current + 1) % count
  {
    var next := current + 1;
    if next == count then
      ModUnique(next, count, 1, 0);
      0
    else
      ModUnique(next, count, 0, next);
      next
  }

  /** `getPreviousMatch`: one before `current`, round to the last mark from 0. */
  function GetPreviousMatch(current: nat, count: nat): (r: nat)
    requires current < count
    ensures r < count
    ensures r == (current - 1 + count) % count
  {
    var previous := current - 1;
    if previous == -1 then
      ModUnique(previous + count, count, 0, count - 1);
      count - 1
    else
      ModUnique(previous + count, count, 1, previous);
      previous
  }

  /** Stepping forward then back, or back then forward, returns to the same mark. */
  lemma {:induction false} NextPreviousInverse(current: nat, count: nat)
    requires current < count
    ensures GetPreviousMatch(GetNextMatch(current, count), count) == current
    ensures GetNextMatch(GetPreviousMatch(current, count), count) == current
  {
  }

  /** The index after `k` steps forward. */
  function StepsNext(current: nat, count: nat, k: nat): (r: nat)
    requires current < count
    ensures r < count
  {
    if k == 0 then current else GetNextMatch(StepsNext(current, count, k - 1), count)
  }

  /** The index after `k` steps back. */
  function StepsPrevious(current: nat, count: nat, k: nat): (r: nat)
    requires current < count
    ensures r < count
  {
    if k == 0 then current else GetPreviousMatch(StepsPrevious(current, count, k - 1), count)
  }

  /** `k` steps forward land `k` places on, modulo the number of marks. */
  lemma {:induction false} StepsNextIsAddition(current: nat, count: nat, k: nat)
    requires current < count
    ensures StepsNext(current, count, k) == (current + k) % count
  {
    if k > 0 {
      StepsNextIsAddition(current, count, k - 1);
      var j := StepsNext(current, count, k - 1);
      assert j == (current + (k - 1)) % count;
      ModAddOne(current + (k - 1), count);
      assert current + (k - 1) + 1 == current + k;
    }
  }

  /** `k` steps back land `k` places before, modulo the number of marks. */
  lemma {:induction false} StepsPreviousIsSubtraction(current: nat, count: nat, k: nat)
    requires current < count
    ensures StepsPrevious(current, count, k) == (current - k) % count
  {
    if k > 0 {
      StepsPreviousIsSubtraction(current, count, k - 1);
      var j := StepsPrevious(current, count, k - 1);
      assert j == (current - (k - 1)) % count;
      ModSubOne(current - (k - 1), count);
      assert current - (k - 1) - 1 == current - k;
    }
  }

  /** Euclidean remainder is the unique `r` in `[0, count)` with `x == q * count + r`. */
  lemma {:induction false} ModUnique(x: int, count: nat, q: int, r: int)
    requires count > 0 && 0 <= r < count && x == q * count + r
    ensures x % count == r
  {
    var q', r' := x / count, x % count;
    assert (q - q') * count == r' - r;
    if q > q' {
      MulAtLeast(q - q', count);
    } else if q < q' {
      MulAtLeast(q' - q, count);
    }
  }

  lemma {:induction false} MulAtLeast(d: int, n: nat)
    requires d >= 1
    ensures d * n >= n
  {
    assert d * n == (d - 1) * n + n;
  }

  lemma {:induction false} ModAddOne(x: int, count: nat)
    requires count > 0
    ensures (x % count + 1) % count == (x + 1) % count
  {
    var q, r := x / count, x % count;
    if r + 1 < count {
      ModUnique(x + 1, count, q, r + 1);
      ModUnique(r + 1, count, 0, r + 1);
    } else {
      assert x + 1 == (q + 1) * count + 0;
      ModUnique(x + 1, count, q + 1, 0);
      ModUnique(r + 1, count, 1, 0);
    }
  }

  lemma {:induction false} ModSubOne(x: int, count: nat)
    requires count > 0
    ensures (x % count - 1 + count) % count == (x - 1) % count
  {
    var q, r := x / count, x % count;
    if r >= 1 {
      ModUnique(x - 1, count, q, r - 1);
      ModUnique(r - 1 + count, count, 1, r - 1);
    } else {
      assert x - 1 == (q - 1) * count + (count - 1);
      ModUnique(x - 1, count, q - 1, count - 1);
      ModUnique(count - 1, count, 0, count - 1);
    }
  }

  /** Stepping forward, or back, once per mark returns to the mark one started from. */
  lemma {:induction false} FullCycle(current: nat, count: nat)
    requires current < count
    ensures StepsNext(current, count, count) == current
    ensures StepsPrevious(current, count, count) == current
  {
    StepsNextIsAddition(current, count, count);
    StepsPreviousIsSubtraction(current, count, count);
    ModUnique(current + count, count, 1, current);
    ModUnique(current - count, count, -1, current);
  }
}

=== FILE: seqs.dfy ===
/**
 * Sequence identities, stated generically so that proofs about trees and
 * candidate lists can use them without re-deriving them element by
 * element.
 */
module Seqs {

  lemma {:induction false} ConcatAssoc<T>(a: seq<T>, b: seq<T>, c: seq<T>)
    ensures a + b + c == a + (b + c)
  {
  }

  lemma {:induction false} Regroup<T>(x: seq<T>, y: seq<T>, z: seq<T>, w: seq<T>, v: seq<T>)
    ensures x + y + (z + w + v) == x + y + z + w + v
  {
  }

  lemma {:induction false} ConsParts<T>(x: T, s: seq<T>)
    ensures ([x] + s)[0] == x && ([x] + s)[1..] == s
  {
  }

  lemma {:induction false} HeadTail<T>(s: seq<T>)
    requires s != []
    ensures [s[0]] + s[1..] == s
  {
  }

  lemma {:induction false} ThreeParts<T>(s: seq<T>)
    requires |s| == 3
    ensures s == [s[0]] + [s[1]] + [s[2]]
  {
  }

  lemma {:induction false} EmptyConcat<T>(a: seq<T>)
    ensures [] + a == a
  {
  }

  lemma {:induction false} TailOfConcat<T>(a: seq<T>, b: seq<T>)
    requires a != []
    ensures (a + b)[0] == a[0] && (a + b)[1..] == a[1..] + b
  {
  }

  /** Two splits of the same sequence with first parts of equal length are the same split. */
  lemma {:induction false} SplitEqual<T>(x1: seq<T>, y1: seq<T>, x2: seq<T>, y2: seq<T>)
    requires x1 + y1 == x2 + y2 && |x1| == |x2|
    ensures x1 == x2 && y1 == y2
  {
    assert x1 == (x1 + y1)[..|x1|];
    assert x2 == (x2 + y2)[..|x2|];
    assert y1 == (x1 + y1)[|x1|..];
    assert y2 == (x2 + y2)[|x2|..];
  }
}

=== FILE: session.dfy ===
/**
 * The content script's state and its message handling: the registry of
 * marks (`markedStrings`) with the index of the current one
 * (`currentMatch`), `clearOldMatches`, `setCurrentMatch`,
 * `moveHighlightedMatch`, the `search` / `move` / `clear` dispatch and the
 * clear on disconnect of the popup's port.
 *
 * The registry holds references to `<mark>` elements. Here a mark is
 * named by its position among the page's marks in document order, and the
 * registry records each mark's text; `Consistent` says the two agree, which
 * every handler keeps.
 */
module SearchSession {
  import opened Wrappers
  import opened Matcher
  import opened Dom
  import opened Highlight
  import opened Navigation

  /** The page, `markedStrings` (the marks' texts, in registry order) and `currentMatch`. */
  datatype Session = Session(doc: Document, marks: seq<string>, currentMatch: nat)

  /** A message from the popup. */
  datatype Message =
    | Search(text: string, matchCase: bool, wholeWords: bool)
    | Move(cmd: string)
    | Clear
    | Other(kind: string)

  /** What the script passes to `sendResponse`. */
  datatype Response =
    | SearchResponse(matchCount: nat, currentMatch: nat)
    | MoveResponse(currentMatch: nat)

  /** Something the content script reacts to: a message, or a port of the popup closing. */
  datatype Event =
    | Received(msg: Message)
    | PortDisconnected(portName: string)

  /** The registry names exactly the page's marks: the `k`-th mark in document order holds `marks[k]`. */
  predicate Consistent(s: Session)
  {
    MarkTexts(s.doc.kids) == s.marks
  }

  /** Exactly the mark at `currentMatch` carries `current_match`. */
  predicate OneCurrent(s: Session)
  {
    forall i :: 0 <= i < |Marks(s.doc.kids)| ==> (Marks(s.doc.kids)[i].current <==> i == s.currentMatch)
  }

  /** The state between handlers. */
  predicate Valid(s: Session)
  {
    && Consistent(s)
    && OneCurrent(s)
    && (if s.marks == [] then s.currentMatch == 0 else s.currentMatch < |s.marks|)
  }

  /** What `clearOldMatches` leaves: no marks, an empty registry, index 0, and the text joined up. */
  predicate Idle(s: Session)
  {
    && Marks(s.doc.kids) == []
    && s.marks == []
    && s.currentMatch == 0
    && Normal(s.doc.kids)
  }

  /**
   * `clearOldMatches`: every registered mark is replaced by its text, the
   * registry is emptied, the index reset, and `<body>` normalized.
   */
  function ClearOldMatches(s: Session): (r: Session)
    requires Consistent(s)
    ensures Idle(r) && Valid(r)
    ensures TextContent(r.doc.kids) == TextContent(s.doc.kids)
    ensures r.doc.hidden == s.doc.hidden
    ensures r.doc.kids == Normalize(Unwrap(s.doc.kids))
  {
    var kids := Unwrap(s.doc.kids);
    Session(Document(s.doc.hidden, Normalize(kids)), [], 0)
  }

  /** Clearing twice is clearing once. */
  lemma {:induction false} ClearIdempotent(s: Session)
    requires Consistent(s)
    ensures ClearOldMatches(ClearOldMatches(s)) == ClearOldMatches(s)
  {
    var c := ClearOldMatches(s);
    UnwrapMarkFree(c.doc.kids);
    NormalizeIdempotent(c.doc.kids);
  }

  /**
   * `setCurrentMatch`: with a non-empty registry, mark `currentMatch`
   * gets `current_match`; with an empty one nothing happens.
   */
  function SetCurrentMatch(s: Session): (r: Session)
    requires s.marks != [] ==> s.currentMatch < |s.marks|
    ensures r.marks == s.marks && r.currentMatch == s.currentMatch && r.doc.hidden == s.doc.hidden
    ensures Unwrap(r.doc.kids) == Unwrap(s.doc.kids)
    ensures ClearFlags(r.doc.kids) == ClearFlags(s.doc.kids)
    ensures s.marks == [] ==> r == s
    ensures Consistent(s) ==> Consistent(r)
    ensures Consistent(s) && s.marks != [] ==>
              && |Marks(r.doc.kids)| == |Marks(s.doc.kids)|
              && Marks(r.doc.kids)[s.currentMatch].current
              && forall i :: 0 <= i < |Marks(r.doc.kids)| && i != s.currentMatch ==>
                   Marks(r.doc.kids)[i] == Marks(s.doc.kids)[i]
  {
    if |s.marks| > 0 then
      s.(doc := Document(s.doc.hidden, SetMarkFlag(s.doc.kids, s.currentMatch, true)))
    else s
  }

  /**
   * `moveHighlightedMatch(direction)`: the current mark loses
   * `current_match`, the index moves forward on "next" and back on any
   * other command, wrapping around, and the new current mark gains the
   * class. The source reads `markedStrings[currentMatch]` first, which
   * throws on an empty registry; hence the precondition.
   */
  function MoveHighlightedMatch(s: Session, cmd: string): (r: Session)
    requires Consistent(s) && s.currentMatch < |s.marks|
    ensures r.marks == s.marks && r.doc.hidden == s.doc.hidden
    ensures r.currentMatch == Step(s.currentMatch, |s.marks|, cmd)
    ensures Unwrap(r.doc.kids) == Unwrap(s.doc.kids)
    ensures ClearFlags(r.doc.kids) == ClearFlags(s.doc.kids)
    ensures Consistent(r)
  {
    var n := |s.marks|;
    var kids := SetMarkFlag(s.doc.kids, s.currentMatch, false);
    ClearFlagKeepsRegistry(s);
    var next := Step(s.currentMatch, n, cmd);
    SetCurrentMatch(Session(Document(s.doc.hidden, kids), s.marks, next))
  }

  /** The index `moveHighlightedMatch` moves to: the next mark on "next", the previous one on anything else. */
  function Step(current: nat, count: nat, cmd: string): (r: nat)
    requires current < count
    ensures r < count
    ensures cmd == "next" ==> r == (current + 1) % count
    ensures cmd != "next" ==> r == (current - 1 + count) % count
  {
    if cmd == "next" then GetNextMatch(current, count) else GetPreviousMatch(current, count)
  }

  /** Taking `current_match` off a mark keeps the registry consistent and the text unchanged. */
  lemma {:induction false} ClearFlagKeepsRegistry(s: Session)
    requires Consistent(s)
    ensures var kids := SetMarkFlag(s.doc.kids, s.currentMatch, false);
            && Consistent(Session(Document(s.doc.hidden, kids), s.marks, 0))
            && Unwrap(kids) == Unwrap(s.doc.kids)
            && ClearFlags(kids) == ClearFlags(s.doc.kids)
  {
    SetMarkFlagKeepsTexts(s.doc.kids, s.currentMatch, false);
  }

  /** Moving keeps exactly one current mark, the one at the new index. */
  lemma {:induction false} MoveKeepsValid(s: Session, cmd: string)
    requires Valid(s) && s.marks != []
    ensures Valid(MoveHighlightedMatch(s, cmd))
  {
    var n := |s.marks|;
    var ms := Marks(s.doc.kids);
    var cleared := s.(doc := Document(s.doc.hidden, SetMarkFlag(s.doc.kids, s.currentMatch, false)));
    var next := Step(s.currentMatch, n, cmd);
    var r := MoveHighlightedMatch(s, cmd);
    var mc := Marks(cleared.doc.kids);
    assert |mc| == |ms| == n;
    assert forall i :: 0 <= i < n ==> !mc[i].current;
    var mr := Marks(r.doc.kids);
    forall i | 0 <= i < |mr|
      ensures mr[i].current <==> i == r.currentMatch
    {
      if i != next {
        assert mr[i] == mc[i];
      }
    }
  }

  /** Moving forward then back returns to exactly the state moved from: page, registry and index. */
  lemma {:induction false} NextThenPrevious(s: Session)
    requires Valid(s) && s.marks != []
    ensures MoveHighlightedMatch(MoveHighlightedMatch(s, "next"), "previous") == s
  {
    var t := MoveHighlightedMatch(s, "next");
    MoveKeepsValid(s, "next");
    var r := MoveHighlightedMatch(t, "previous");
    MoveKeepsValid(t, "previous");
    NextPreviousInverse(s.currentMatch, |s.marks|);
    ValidDeterminesMarks(s, r);
    FlagsAndMarksDetermineForest(r.doc.kids, s.doc.kids);
  }

  /** The registry and the index of a valid state fix every mark's text and flag. */
  lemma {:induction false} ValidDeterminesMarks(s: Session, r: Session)
    requires Valid(s) && Valid(r)
    requires r.marks == s.marks && r.currentMatch == s.currentMatch
    ensures Marks(r.doc.kids) == Marks(s.doc.kids)
  {
    var ms, mr := Marks(s.doc.kids), Marks(r.doc.kids);
    assert |ms| == |mr| == |s.marks|;
    forall i | 0 <= i < |ms|
      ensures mr[i] == ms[i]
    {
      assert mr[i].text == r.marks[i] == s.marks[i] == ms[i].text;
      assert mr[i].current == ms[i].current;
    }
  }

  /**
   * The `search` branch: clear, build the pattern, run the pass, make the
   * first mark current when the iterator found anything, and answer with
   * the registry's size and the current index.
   */
  function SearchPage(s: Session, text: string, matchCase: bool, wholeWords: bool, rule: OffsetRule): (r: (Session, Response))
    requires Consistent(s)
    ensures r.1 == SearchResponse(|r.0.marks|, r.0.currentMatch)
    ensures r.0.currentMatch == 0
    ensures var c := ClearOldMatches(s);
            r.0.marks == Registry(Candidates(c.doc.kids, Root(c.doc), GetRegex(text, SearchOptions(matchCase, wholeWords))),
                                  GetRegex(text, SearchOptions(matchCase, wholeWords)))
    ensures Valid(r.0)
  {
    var c := ClearOldMatches(s);
    var p := GetRegex(text, SearchOptions(matchCase, wholeWords));
    var pass := HighlightMatches(c.doc, c.marks, p, rule);
    HighlightMatchesConsistent(c.doc, p, rule);
    assert [] + Registry(Candidates(c.doc.kids, Root(c.doc), p), p) == Registry(Candidates(c.doc.kids, Root(c.doc), p), p);
    var found := Session(pass.doc, pass.marks, 0);
    var s' := if pass.found then SetCurrentMatch(found) else found;
    (s', SearchResponse(|s'.marks|, s'.currentMatch))
  }

  /** A search in which no text node matches answers 0 matches, index 0, and leaves the cleared page. */
  lemma {:induction false} NoMatchResponse(s: Session, text: string, matchCase: bool, wholeWords: bool, rule: OffsetRule)
    requires Consistent(s)
    requires !HasMatchingText(ClearOldMatches(s).doc.kids, GetRegex(text, SearchOptions(matchCase, wholeWords)))
    ensures var r := SearchPage(s, text, matchCase, wholeWords, rule);
            && r.1 == SearchResponse(0, 0)
            && r.0 == ClearOldMatches(s)
  {
    var c := ClearOldMatches(s);
    FoundIffSomeTextMatches(c.doc, c.marks, GetRegex(text, SearchOptions(matchCase, wholeWords)), rule);
  }

  /**
   * Searching then clearing gives the page clearing alone gives, provided
   * every split lands on an occurrence of its match (`OffsetsFound`).
   */
  lemma {:induction false} SearchThenClear(s: Session, text: string, matchCase: bool, wholeWords: bool, rule: OffsetRule)
    requires Consistent(s)
    requires var c := ClearOldMatches(s);
             var p := GetRegex(text, SearchOptions(matchCase, wholeWords));
             OffsetsFound(Candidates(c.doc.kids, Root(c.doc), p), p, rule)
    ensures ClearOldMatches(SearchPage(s, text, matchCase, wholeWords, rule).0) == ClearOldMatches(s)
  {
    var c := ClearOldMatches(s);
    var p := GetRegex(text, SearchOptions(matchCase, wholeWords));
    var pass := HighlightMatches(c.doc, c.marks, p, rule);
    HighlightMatchesThenClear(c.doc, c.marks, p, rule);
    UnwrapMarkFree(c.doc.kids);
    NormalizeIdempotent(c.doc.kids);
  }

  /** With the split at the match position, search then clear always restores the page. */
  lemma {:induction false} CorrectedSearchThenClear(s: Session, text: string, matchCase: bool, wholeWords: bool)
    requires Consistent(s)
    ensures ClearOldMatches(SearchPage(s, text, matchCase, wholeWords, MatchPosition).0) == ClearOldMatches(s)
  {
    var c := ClearOldMatches(s);
    var p := GetRegex(text, SearchOptions(matchCase, wholeWords));
    MatchPositionOffsetsFound(Candidates(c.doc.kids, Root(c.doc), p), p);
    SearchThenClear(s, text, matchCase, wholeWords, MatchPosition);
  }

  /** Without "whole words" the page script's own split restores the page too. */
  lemma {:induction false} SubstringSearchThenClear(s: Session, text: string, matchCase: bool)
    requires Consistent(s)
    ensures ClearOldMatches(SearchPage(s, text, matchCase, false, IndexOfJoined).0) == ClearOldMatches(s)
  {
    var c := ClearOldMatches(s);
    var p := GetRegex(text, SearchOptions(matchCase, false));
    SubstringOffsetsFound(Candidates(c.doc.kids, Root(c.doc), p), text, matchCase);
    SearchThenClear(s, text, matchCase, false, IndexOfJoined);
  }

  /**
   * The message listener: `search` runs a search and answers with the
   * count and index; `move` moves and answers with the index, and on an
   * empty registry throws before answering, which leaves the state as it
   * was; `clear` clears without answering; any other message is ignored.
   */
  function HandleMessage(s: Session, m: Message, rule: OffsetRule): (r: (Session, Option<Response>))
    requires Valid(s)
    ensures Valid(r.0)
    ensures m.Search? ==> r.1.Some? && r.1.value.SearchResponse?
    ensures m.Search? ==>
              var p := GetRegex(m.text, SearchOptions(m.matchCase, m.wholeWords));
              var c := ClearOldMatches(s);
              && r.0.marks == Registry(Candidates(c.doc.kids, Root(c.doc), p), p)
              && r.0.currentMatch == 0
              && r.1 == Some(SearchResponse(|r.0.marks|, 0))
              && r.0 == SearchPage(s, m.text, m.matchCase, m.wholeWords, rule).0
    ensures m.Move? ==> (r.1.Some? <==> s.marks != []) && (r.1.Some? ==> r.1.value == MoveResponse(r.0.currentMatch))
    ensures m.Move? && s.marks == [] ==> r.0 == s
    ensures m.Move? && s.marks != [] ==>
              && r.0.currentMatch == Step(s.currentMatch, |s.marks|, m.cmd)
              && r.0.marks == s.marks
              && r.0.doc.hidden == s.doc.hidden
              && ClearFlags(r.0.doc.kids) == ClearFlags(s.doc.kids)
    ensures m.Clear? ==> r.1 == None && Idle(r.0) && r.0 == ClearOldMatches(s)
    ensures m.Other? ==> r == (s, None)
  {
    match m
    case Search(text, matchCase, wholeWords) =>
      var (s', resp) := SearchPage(s, text, matchCase, wholeWords, rule);
      (s', Some(resp))
    case Move(cmd) =>
      if s.marks == [] then (s, None)
      else
        MoveKeepsValid(s, cmd);
        var s' := MoveHighlightedMatch(s, cmd);
        (s', Some(MoveResponse(s'.currentMatch)))
    case Clear => (ClearOldMatches(s), None)
    case Other(_) => (s, None)
  }

  /** Both listeners: messages, and the popup's "disconnect-sender" port closing, which clears. */
  function HandleEvent(s: Session, e: Event, rule: OffsetRule): (r: (Session, Option<Response>))
    requires Valid(s)
    ensures Valid(r.0)
    ensures e.Received? ==> r == HandleMessage(s, e.msg, rule)
    ensures e.PortDisconnected? ==> r.1 == None
    ensures e.PortDisconnected? && e.portName == "disconnect-sender" ==> Idle(r.0) && r.0 == ClearOldMatches(s)
    ensures e.PortDisconnected? && e.portName != "disconnect-sender" ==> r.0 == s
  {
    match e
    case Received(m) => HandleMessage(s, m, rule)
    case PortDisconnected(name) =>
      if name == "disconnect-sender" then (ClearOldMatches(s), None) else (s, None)
  }

  /** Any run of events from a valid state keeps the state valid. */
  function Run(s: Session, es: seq<Event>, rule: OffsetRule): (r: Session)
    requires Valid(s)
    ensures Valid(r)
    decreases |es|
  {
    if es == [] then s else Run(HandleEvent(s, es[0], rule).0, es[1..], rule)
  }
}

=== FILE: strings.dfy ===
/**
 * The JavaScript string operations the highlight engine relies on, over
 * strings modelled as `seq<char>`: `String.prototype.indexOf`,
 * `String.prototype.substring`, `String.prototype.includes` and the
 * comma join that `Array.prototype.toString` performs.
 */
module Strings {

  /** `needle` occurs in `s` starting at offset `q`. */
  predicate OccursAt(s: string, needle: string, q: int)
  {
    0 <= q && q + |needle| <= |s| && s[q..q + |needle|] == needle
  }

  /** `s.indexOf(needle, from)`: the first occurrence at or after `from`, or -1. */
  function IndexOfFrom(s: string, needle: string, from: nat): (r: int)
    decreases |s| - from
    ensures r == -1 || (from <= r && OccursAt(s, needle, r))
  {
    if from + |needle| > |s| then -1
    else if s[from..from + |needle|] == needle then from
    else IndexOfFrom(s, needle, from + 1)
  }

  /** The search from `from` finds the first occurrence there is, and -1 only when there is none. */
  lemma {:induction false} IndexOfFromIsFirst(s: string, needle: string, from: nat)
    decreases |s| - from
    ensures IndexOfFrom(s, needle, from) == -1 ==>
              forall q {:trigger OccursAt(s, needle, q)} :: from <= q ==> !OccursAt(s, needle, q)
    ensures IndexOfFrom(s, needle, from) != -1 ==>
              forall q {:trigger OccursAt(s, needle, q)} :: from <= q < IndexOfFrom(s, needle, from) ==> !OccursAt(s, needle, q)
  {
    if from + |needle| <= |s| && s[from..from + |needle|] != needle {
      IndexOfFromIsFirst(s, needle, from + 1);
    }
  }

  /** `s.indexOf(needle)`: the first occurrence of `needle` in `s`, or -1. */
  function IndexOf(s: string, needle: string): (r: int)
    ensures r == -1 || OccursAt(s, needle, r)
  {
    IndexOfFrom(s, needle, 0)
  }

  /** `indexOf` returns -1 exactly when `needle` occurs nowhere, and otherwise its first occurrence. */
  lemma {:induction false} IndexOfIsFirst(s: string, needle: string)
    ensures IndexOf(s, needle) == -1 <==> forall q {:trigger OccursAt(s, needle, q)} :: !OccursAt(s, needle, q)
    ensures IndexOf(s, needle) != -1 ==>
              forall q {:trigger OccursAt(s, needle, q)} :: q < IndexOf(s, needle) ==> !OccursAt(s, needle, q)
  {
    IndexOfFromIsFirst(s, needle, 0);
  }

  /**
   * `r` is what a correct `indexOf` answers: -1 when `needle` occurs
   * nowhere in `s`, and otherwise its first occurrence.
   */
  ghost predicate FirstOccurrence(s: string, needle: string, r: int)
  {
    && (r == -1 <==> forall q {:trigger OccursAt(s, needle, q)} :: !OccursAt(s, needle, q))
    && (r != -1 ==> OccursAt(s, needle, r))
    && (forall q {:trigger OccursAt(s, needle, q)} :: q < r ==> !OccursAt(s, needle, q))
  }

  /** `s.includes(sub)`. */
  predicate Contains(s: string, sub: string)
  {
    IndexOf(s, sub) != -1
  }

  /** Clamps an index into `[0, len]`, as `substring` does with its arguments. */
  function Clamp(i: int, len: nat): (r: nat)
    ensures r <= len
    ensures 0 <= i <= len ==> r == i
  {
    if i < 0 then 0 else if i > len then len else i
  }

  /**
   * `s.substring(a, b)`: both indices are clamped into `[0, |s|]` and the
   * smaller one is taken as the start, so a negative start reads as 0.
   */
  function Substring(s: string, a: int, b: int): (r: string)
    ensures 0 <= a <= b <= |s| ==> r == s[a..b]
    ensures a <= 0 && b <= 0 ==> r == []
    ensures a <= 0 && 0 <= b <= |s| ==> r == s[..b]
    ensures 0 <= a <= |s| <= b ==> r == s[a..]
    ensures 0 <= b <= a <= |s| ==> r == s[b..a]
  {
    var i := Clamp(a, |s|);
    var j := Clamp(b, |s|);
    if i <= j then s[i..j] else s[j..i]
  }

  /** `String(arr)` for an array of strings: the elements joined by commas. */
  function JoinComma(ms: seq<string>): (r: string)
    ensures |ms| == 1 ==> r == ms[0]
    ensures |ms| >= 1 ==> |ms[0]| <= |r| && r[..|ms[0]|] == ms[0]
    ensures |ms| >= 2 ==> |ms[0]| < |r| && r[|ms[0]|] == ','
  {
    if ms == [] then []
    else if |ms| == 1 then ms[0]
    else ms[0] + "," + JoinComma(ms[1..])
  }
}

=== FILE: wrappers.dfy ===
/** The optional-value datatype used where the page script gets `null` back from a call. */
module Wrappers {
  datatype Option<+T> = None | Some(value: T)
}
